=== FILE: README.md ===
# Clinic waitlist matching and booking — a Dafny model

This project models the matching engine of a clinic waitlist optimiser. Each
active waitlist entry holds a patient's standing request for one appointment
type. The entry records the days the patient can attend and the businesses,
practitioners and times of day they prefer.

The engine works in these steps:

- It pairs every active, unexpired entry with every unbooked future slot of the
  same appointment type.
- It scores each pair. The day of week is a hard filter. Business, practitioner
  and time of day are soft preferences that add a bonus or a penalty. Urgency
  and time already waited add table-driven bonuses. The result carries a
  seven-field breakdown and a list of human-readable reasons.
- It keeps pairs that score above zero and stably sorts them by score, highest
  first.
- It books a chosen pair in one atomic unit of work. That unit creates the
  appointment, marks the slot booked and marks the entry booked.

The HTTP endpoints reshape the ranking into response views. A booking failure
becomes a 400 error, and an empty per-entry ranking becomes a 404. The
dashboard shows a prefix of the ranking and the ranking's length.

Modules, one per file:

- `Domain`: the entities (patient, practitioner, business, appointment type,
  waitlist entry, slot, appointment), their enums and JavaScript truthiness of
  optional strings.
- `Availability`: the shared hour→time-of-day and `getDay`-index→day helpers.
- `Waitlist`: the urgency sort score and the rounded-up days on the waitlist.
- `Decimal`: decimal rendering of naturals. The wait reason's text uses it.
- `Scoring`: `calculateMatchScore`, `createBreakdown` and the scoring's private
  day and time helpers.
- `Ranking`: the two queries, the candidate enumeration (also as loops) and the
  stable descending sort. It holds `findMatches` and `findMatchesForEntry`.
- `Booking`: `bookMatch` over a keyed store, with faults of the storage layer
  as an input.
- `Dashboard`: `getTopMatches` and the overview's `potentialMatches`.
- `MatchingController`: the three matching endpoints.

Inputs that come from the environment are parameters:

- The current time `now`, in epoch milliseconds, stands for `Date.now()` /
  `new Date()`. The source reads the clock anew in each query and in each
  scoring call. The model uses one `now` for a whole ranking, as if all those
  reads returned the same instant.
- A slot's local day index and hour (`startDay`, `startHour`) stand for
  `getDay()` and `getHours()` of its start.
- The id the store gives a new appointment is the `appointmentId` parameter.
- A failure thrown inside the transaction is the `fault` parameter.
- Query results are sequences. Their order stands for the queries' ORDER BY.

## Model

| member | source | states |
|---|---|---|
| Availability.TimeOfDayFor | packages/types/src/availability.ts:41-45 | morning exactly below hour 12, afternoon exactly for 12 ≤ hour < 17, evening exactly from 17 |
| Availability.TimeOfDayMonotone | packages/types/src/availability.ts:41-45 | a later hour never falls in an earlier period |
| Availability.DayOfWeekFromIndex | packages/types/src/availability.ts:48-53 | the table lookup inverts the Sunday-first index; index 0 is exactly Sunday |
| Availability.DayOfWeekRoundTrip | packages/types/src/availability.ts:48-53 | every day is reached from its own index |
| Availability.DayOfWeekInjective | packages/types/src/availability.ts:48-53 | distinct indices give distinct days |
| Waitlist.UrgencyScore | packages/types/src/waitlist.ts:87-95 | the score is 1..4 and is the 1-based position of the urgency in ascending order low, normal, high, urgent |
| Waitlist.UrgencyScoreStrictlyIncreasing | packages/types/src/waitlist.ts:87-95 | a more urgent level always has a strictly larger score |
| Waitlist.UrgencyScoreInjective | packages/types/src/waitlist.ts:87-95 | no two urgencies share a score |
| Waitlist.DaysOnWaitlist | packages/types/src/waitlist.ts:79-84 | the result is the least d with \|now − created\| ≤ d days (ceil of the absolute difference) |
| Waitlist.DaysOnWaitlistSymmetric | packages/types/src/waitlist.ts:82 | a creation time in the future counts like the same distance in the past |
| Waitlist.DaysOnWaitlistZeroIff | packages/types/src/waitlist.ts:82-83 | zero days exactly when created at `now` |
| Waitlist.DaysOnWaitlistWithinOneDay | packages/types/src/waitlist.ts:83 | any positive difference up to one day counts as one day |
| Decimal.NatToDecimal | apps/api/src/modules/matching/matching.service.ts:182 | the rendered number is a non-empty digit string with no leading zero |
| Decimal.DecimalRoundTrip | apps/api/src/modules/matching/matching.service.ts:182 | reading the rendered digits back gives the number |
| Scoring.CreateBreakdown | apps/api/src/modules/matching/matching.service.ts:204-222 | the fields are the given components and the total is their unclamped sum |
| Scoring.Text | apps/api/src/modules/matching/matching.service.ts:118-182 | "Day not available" exactly, and each other reason starts with its source prefix ("Available on ", "Preferred location: ", "Preferred practitioner: ", "Preferred time: ", the capitalised urgency, "Waiting ") and the priority and wait texts end in " priority" and " days" |
| Scoring.TextInjective | apps/api/src/modules/matching/matching.service.ts:118-182 | two reasons have the same text exactly when they are the same reason, so every reason can be read back from its text |
| Scoring.WaitingTextRecoversDays | apps/api/src/modules/matching/matching.service.ts:181-183 | the day count can be read back from the text "Waiting N days" |
| Scoring.PractitionerLabel | apps/api/src/modules/matching/matching.service.ts:141-143 | a truthy title gives title + last name, otherwise first + last name |
| Scoring.SlotDayOfWeek | apps/api/src/modules/matching/matching.service.ts:224-227 | the private day lookup is inverted by the shared day-to-index map |
| Scoring.SlotTimeOfDay | apps/api/src/modules/matching/matching.service.ts:229-233 | morning exactly below hour 12, evening exactly from hour 17, afternoon between |
| Scoring.SlotHelpersAgree | apps/api/src/modules/matching/matching.service.ts:224-233 | the service's private day and time helpers agree with the shared helpers |
| Scoring.Capitalized | apps/api/src/modules/matching/matching.service.ts:173 | the priority word is the urgency name with its first letter upper-cased and the rest unchanged |
| Scoring.CapitalizedNames | apps/api/src/modules/matching/matching.service.ts:173 | the four priority words are "Low", "Normal", "High" and "Urgent" |
| Scoring.UrgencyBonus | apps/api/src/modules/matching/matching.service.ts:164-171 | the bonus is 0, 10, 25 and 40 for low, normal, high and urgent, taken by the urgency's position in the ascending order; 40 exactly for urgent |
| Scoring.UrgencyBonusIncreasing | apps/api/src/modules/matching/matching.service.ts:165-170 | the bonus strictly increases from low to urgent |
| Scoring.DaysWaiting | apps/api/src/modules/matching/matching.service.ts:177-179 | whole days waited rounded down: d days ≤ now − created < d+1 days |
| Scoring.WaitTimeBonus | apps/api/src/modules/matching/matching.service.ts:180 | the bonus is at most 30 and at most two per day, and it equals one of the two |
| Scoring.DaysWaitingVersusDaysOnWaitlist | apps/api/src/modules/matching/matching.service.ts:177-179 | for a past creation time, the service's floor and the shared helper's ceil differ by at most one day |
| Scoring.SoftPreference | apps/api/src/modules/matching/matching.service.ts:125-162 | an empty list is neutral; a hit earns the bonus and no penalty; a miss against a non-empty list costs the penalty and earns no bonus |
| Scoring.PreferenceReasons | apps/api/src/modules/matching/matching.service.ts:121-162 | the day, location, practitioner and time reasons: each recorded one is justified, each whose condition holds is recorded, in step order |
| Scoring.ScoreReasons | apps/api/src/modules/matching/matching.service.ts:121-183 | every recorded reason's condition holds; every reason whose condition holds is recorded; reasons are in step order |
| Scoring.ScoreBreakdown | apps/api/src/modules/matching/matching.service.ts:125-183 | each component is the bonus of a hit or base 100 minus the penalty of each miss; the total is the component sum |
| Scoring.CalculateMatchScore | apps/api/src/modules/matching/matching.service.ts:101-202 | a day outside a non-empty day list gives score 0, an all-zero breakdown and only "Day not available"; otherwise the breakdown and reasons above, and the score is the total clamped at 0 |
| Scoring.ScoreBounds | apps/api/src/modules/matching/matching.service.ts:185-188 | past the day filter with a past creation time the score is 35..230 and never clamped |
| Scoring.NoPreferencesScore | apps/api/src/modules/matching/matching.service.ts:113-183 | for a slot that passes the day filter, with no business, practitioner or time preference and a creation time in the past, the score is exactly 100 + urgency bonus + wait bonus |
| Scoring.HigherUrgencyScoresHigher | apps/api/src/modules/matching/matching.service.ts:164-171 | for a slot that passes the day filter and a creation time in the past, higher urgency with all else equal gives a strictly higher score |
| Scoring.FutureCreationClampsToZero | apps/api/src/modules/matching/matching.service.ts:177-188 | a creation time ≥ 120 days ahead makes the score 0 on every slot: a day outside a non-empty day list is rejected, and past the filter the wait bonus is negative enough that the total clamps to 0 |
| Scoring.UrgentMondayBreakdown | apps/api/src/modules/matching/matching.service.ts:125-183 | an urgent entry waiting 10 days, free on Mondays only and naming only the slot's practitioner, gets base 100, practitioner 25, urgency 40 and wait 20 on a Monday slot, total 185 |
| Scoring.UrgentMondayReasons | apps/api/src/modules/matching/matching.service.ts:121-183 | for that entry and Monday slot the reasons are exactly the day, the practitioner, urgent priority and ten days waiting, in that order |
| Scoring.UrgentMondayExample | apps/api/src/modules/matching/matching.service.ts:113-201 | an urgent Monday-only entry waiting 10 days that names the slot's practitioner scores 185 with four exact reasons; a Tuesday slot scores 0 with "Day not available" |
| Ranking.Evaluate | apps/api/src/modules/matching/matching.service.ts:246-255 | a scored pair keeps its entry and slot; its score is the breakdown total clamped at 0, and a score above 0 means the slot passed the day filter |
| Ranking.ActiveWaitlistAppend | apps/api/src/modules/matching/matching.service.ts:51-71 | the waitlist filter preserves order and multiplicity: filtering a + b gives the filtered a followed by the filtered b |
| Ranking.ActiveWaitlistSingleton | apps/api/src/modules/matching/matching.service.ts:53-57 | a single entry is kept exactly when it is active and expires after `now` |
| Ranking.AvailableSlotsAppend | apps/api/src/modules/matching/matching.service.ts:76-96 | the slot filter preserves order and multiplicity: filtering a + b gives the filtered a followed by the filtered b |
| Ranking.AvailableSlotsSingleton | apps/api/src/modules/matching/matching.service.ts:78-82 | a single slot is kept exactly when it has the type, is unbooked and starts after `now` |
| Ranking.EvaluateCarriesScore | apps/api/src/modules/matching/matching.service.ts:246-255 | a ranked match carries the breakdown and reasons of the scoring; past the day filter these are the full breakdown and reason list |
| Ranking.MatchKey | apps/api/src/modules/matching/matching.controller.ts:18 | the match id is the entry id, one dash and the slot id, in that order |
| Ranking.MatchKeyDeterminesIds | apps/api/src/modules/matching/matching.controller.ts:18 | with equal-length entry ids the match id determines both ids |
| Ranking.MatchKeyCollision | apps/api/src/modules/matching/matching.controller.ts:18 | ids containing a dash can produce the same match id for different pairs |
| Ranking.ActiveWaitlist | apps/api/src/modules/matching/matching.service.ts:51-71 | an entry is returned exactly when it is in the table, active and expires after `now` |
| Ranking.AvailableSlots | apps/api/src/modules/matching/matching.service.ts:76-96 | a slot is returned exactly when it is of the type, unbooked and starts after `now` |
| Ranking.EntryMatchesMembership | apps/api/src/modules/matching/matching.service.ts:290-302 | the per-entry loop keeps exactly the slots whose pair scores above zero |
| Ranking.CandidatesMembership | apps/api/src/modules/matching/matching.service.ts:242-258 | the nested loops keep exactly the positive-scoring pairs of a listed entry and an open slot of its type |
| Ranking.Insert | apps/api/src/modules/matching/matching.service.ts:260 | inserting into a descending list keeps it descending and adds exactly the one element to the multiset |
| Ranking.SortByScore | apps/api/src/modules/matching/matching.service.ts:260 | the result is descending by score and a permutation of the input |
| Ranking.SortKeepsMembers | apps/api/src/modules/matching/matching.service.ts:260 | sorting keeps exactly the input's members and its length |
| Ranking.InsertKeepsScoreClass | apps/api/src/modules/matching/matching.service.ts:260 | insertion keeps the relative order of matches with the same score |
| Ranking.SortKeepsScoreClass | apps/api/src/modules/matching/matching.service.ts:260 | the sort is stable: equal scores keep the enumeration order |
| Ranking.FindMatches | apps/api/src/modules/matching/matching.service.ts:238-261 | the result is sorted descending; every member is a positive pair of an active, unexpired entry and an open slot of its type; every such pair is present; count and per-score order equal the enumeration's |
| Ranking.FindMatchesForEntry | apps/api/src/modules/matching/matching.service.ts:266-305 | an unknown id gives []; otherwise a descending, stable ranking of exactly the entry's positive open slots |
| Ranking.LookupIgnoresStatus | apps/api/src/modules/matching/matching.service.ts:266-305 | a cancelled entry still gets matches by id, though the all-entries ranking leaves it out |
| Ranking.EntryMatches | apps/api/src/modules/matching/matching.service.ts:245-257 | at most one match per slot, each of the given entry and scoring above 0; EntryMatchesMembership states exactly which |
| Ranking.Candidates | apps/api/src/modules/matching/matching.service.ts:242-258 | every enumerated match belongs to a listed entry and scores above 0; CandidatesMembership states exactly which |
| Ranking.CollectEntryMatches | apps/api/src/modules/matching/matching.service.ts:290-302 | the slot loop builds exactly the entry's kept matches in slot order |
| Ranking.EntryMatchesSnoc | apps/api/src/modules/matching/matching.service.ts:293-301 | one more slot appends its match exactly when it scores above zero |
| Ranking.CollectCandidates | apps/api/src/modules/matching/matching.service.ts:242-258 | the nested loops build exactly the entry-major enumeration |
| Booking.AppointmentFor | apps/api/src/modules/matching/matching.service.ts:335-346 | the new appointment takes the entry's patient, the slot's practitioner, business, type and times, status scheduled, and the entry's id as its waitlist origin |
| Booking.FaultMessage | apps/api/src/modules/matching/matching.service.ts:365-367 | a thrown `Error` yields its message, anything else "Unknown error" |
| Booking.BookMatch | apps/api/src/modules/matching/matching.service.ts:310-368 | missing entry, missing slot, booked slot and storage fault fail in that order with their messages and change nothing; success happens exactly otherwise and writes one new appointment, the booked slot and the booked entry, and nothing else; in a store keyed by primary key the new appointment records the requested entry id |
| Booking.BookingKeepsStoreValid | apps/api/src/modules/matching/matching.service.ts:334-357 | a booking keeps every entry, slot and appointment stored under its own id |
| Booking.BookingAddsOneAppointment | apps/api/src/modules/matching/matching.service.ts:334-346 | a successful booking grows the appointment table by exactly one |
| Booking.SecondBookingFails | apps/api/src/modules/matching/matching.service.ts:330-332 | after a success, any booking of the same slot by a stored entry fails as already booked and changes nothing |
| Booking.CancelledEntryCanBeBooked | apps/api/src/modules/matching/matching.service.ts:322-332 | the entry's status is not checked: a cancelled entry books onto a free slot |
| Dashboard.Summarize | apps/api/src/modules/dashboard/dashboard.service.ts:61-84 | a summary row carries the match id, both ids, score, reason texts, patient id and name, the appointment type's name, duration and colour, the urgency, the creation time, the short practitioner label, the business name and the start |
| Dashboard.TopMatches | apps/api/src/modules/dashboard/dashboard.service.ts:61 | the result has min(limit, n) rows, and row i summarises match i |
| Dashboard.GetTopMatches | apps/api/src/modules/dashboard/dashboard.service.ts:58-85 | the rows summarise a prefix of the full ranking |
| Dashboard.TopMatchesAreBest | apps/api/src/modules/dashboard/dashboard.service.ts:58-61 | no omitted match scores above a listed one |
| Dashboard.PositiveSlotCountSnoc | apps/api/src/modules/matching/matching.service.ts:290-302 | the count of positive slots grows by one exactly for a positive last slot |
| Dashboard.EntryMatchesCount | apps/api/src/modules/matching/matching.service.ts:245-257 | an entry's kept matches number its positive slots |
| Dashboard.CandidatesCount | apps/api/src/modules/matching/matching.service.ts:242-258 | the enumeration's length is the number of positive entry–slot pairs |
| Dashboard.PotentialMatches | apps/api/src/modules/dashboard/dashboard.service.ts:39-53 | the overview figure is the number of positive-scoring pairs of an active entry and an open slot of its type |
| MatchingController.FullName | apps/api/src/modules/matching/matching.controller.ts:40-42 | a truthy title gives title, first and last name; otherwise first and last name |
| MatchingController.FullNameVersusLabel | apps/api/src/modules/matching/matching.controller.ts:40-42 | the full name equals the short label exactly when there is no truthy title; otherwise it is longer by the first name and a space |
| MatchingController.SlotViewOf | apps/api/src/modules/matching/matching.controller.ts:36-50 | the slot view carries the slot's id, the practitioner's id, full name and designation, the business, the type, the start, end and duration |
| MatchingController.EntryViewOf | apps/api/src/modules/matching/matching.controller.ts:22-35 | the entry view carries the id, the patient's id, "first last" name and contacts, the type, the urgency, the notes and both dates |
| MatchingController.MatchViewOf | apps/api/src/modules/matching/matching.controller.ts:17-51 | a view carries the match id, score, breakdown and reason texts, and embeds the entry exactly when asked |
| MatchingController.Views | apps/api/src/modules/matching/matching.controller.ts:17 | one view per match, in order |
| MatchingController.FindAllMatches | apps/api/src/modules/matching/matching.controller.ts:13-53 | count equals the ranking's length, and view i is match i with its entry |
| MatchingController.AllMatchesRanked | apps/api/src/modules/matching/matching.controller.ts:13-53 | the views come highest score first |
| MatchingController.FindMatchesForEntry | apps/api/src/modules/matching/matching.controller.ts:60-92 | 404 "No matches found for this waitlist entry" exactly when the ranking is empty; otherwise the id, count and views without the entry |
| MatchingController.UnknownAndUnmatchedLookAlike | apps/api/src/modules/matching/matching.controller.ts:63-65 | an unknown id and a known entry without matches get the same 404 |
| MatchingController.EntryMatchIdsCarryEntryId | apps/api/src/modules/matching/matching.controller.ts:68-71 | with the entry stored under its own id, every view id starts with that id and a dash |
| MatchingController.MatchKeyPrefix | apps/api/src/modules/matching/matching.controller.ts:71 | a match id begins with the entry id and a dash |
| MatchingController.BookMatch | apps/api/src/modules/matching/matching.controller.ts:99-117 | a missing or empty id gives 400 "waitlistEntryId and slotId are required" and no change; a failure gives 400 with the error, or "Booking failed" when that is empty; success returns the appointment id and the fixed message |
| MatchingController.BookErrorsChangeNothing | apps/api/src/modules/matching/matching.controller.ts:102-110 | every error reply is a 400 and the store is untouched |
| MatchingController.BookSucceedsIff | apps/api/src/modules/matching/matching.controller.ts:99-117 | the endpoint succeeds exactly when both ids are truthy and name an entry and a free slot, and no fault occurs |
| MatchingController.EmptyErrorBecomesBookingFailed | apps/api/src/modules/matching/matching.controller.ts:109 | a storage error with an empty message surfaces as "Booking failed" |

## Left out

- Query order: the store's ORDER BY (urgency descending by enum order, then creation time; slot start time) is not recomputed. The input sequences are taken to be in that order. Because the sort is stable, ties keep that order.
- Concurrency: the service checks the slot's booked flag outside the transaction, so two concurrent bookings can both pass it. The model evaluates one call at a time against one store state.
- Dates and time zones: `Date.now()`, `getDay()` and `getHours()` are inputs (`now`, `startDay`, `startHour`). Time-zone conversion is not modelled.
- Dashboard.TopMatches: takes `limit` as a natural number. The parsing of the query string (a default of 10; `NaN` and negative values, which `slice` treats specially) belongs to the dashboard controller and is not modelled.
- Read-phase failures: a storage error while the entry or slot is being looked up is caught like one in the transaction. Only faults during the transaction are modelled, as the `fault` parameter.
- Appointment ids: the store generates them. The model takes the new id as a parameter that is not already in use.
- Other overview figures: `getOverview` also counts patients, waitlist entries, slots and recent bookings with plain store counts. Only `potentialMatches` is modelled.
- The outside-business-hours flag, `updatedAt` stamps and the matching configuration types are not modelled. Entry notes are carried through to the views but never read by scoring.
- Outside the matching core: the other controllers and services (waitlist, slots, practitioner and business listings), the web UI, the seed script and the mock data.
- Determinism of ranking holds because every operation here is a pure function of its inputs. No separate lemma states it.

Observed behaviour that the model keeps as written:

- `bookMatch` does not check the entry's status or that the slot's appointment type matches the entry's (`Booking.CancelledEntryCanBeBooked`).
- `findMatchesForEntry` looks the entry up by id without the active/unexpired filter (`Ranking.LookupIgnoresStatus`).
- Match ids join two ids with a dash and can collide (`Ranking.MatchKeyCollision`).
- A creation time in the future makes the wait bonus negative (`Scoring.FutureCreationClampsToZero`).

=== FILE: availability.dfy ===
/**
 The shared time helpers: the time-of-day period of an hour and the day of week
 of a `Date.getDay` index.
 */
module Availability {
  import opened Domain

  /** Position of a period in the day: morning before afternoon before evening. */
  function PeriodRank(t: TimeOfDay): nat {
    match t
    case Morning => 0
    case Afternoon => 1
    case Evening => 2
  }

  /** The period an hour falls in; 12:00 already belongs to the afternoon and 17:00 to the evening. */
  function TimeOfDayFor(hour: int): (t: TimeOfDay)
    ensures t == Morning <==> hour < 12
    ensures t == Afternoon <==> 12 <= hour < 17
    ensures t == Evening <==> 17 <= hour
  {
    if hour < 12 then Morning
    else if hour < 17 then Afternoon
    else Evening
  }

  /** A later hour never falls in an earlier period. */
  lemma TimeOfDayMonotone(h1: int, h2: int)
    requires h1 <= h2
    ensures PeriodRank(TimeOfDayFor(h1)) <= PeriodRank(TimeOfDayFor(h2))
  {
  }

  /** The `Date.getDay` index of a day of week (Sunday is 0). */
  function DayIndexOf(d: DayOfWeek): DayIndex {
    match d
    case Sun => 0
    case Mon => 1
    case Tue => 2
    case Wed => 3
    case Thu => 4
    case Fri => 5
    case Sat => 6
  }

  /** The day-of-week table lookup of a `Date.getDay` index. */
  function DayOfWeekFromIndex(i: DayIndex): (d: DayOfWeek)
    ensures DayIndexOf(d) == i
    ensures i == 0 <==> d == Sun
  {
    [Sun, Mon, Tue, Wed, Thu, Fri, Sat][i]
  }

  /** Every day of week is reached from exactly its own index. */
  lemma DayOfWeekRoundTrip(d: DayOfWeek)
    ensures DayOfWeekFromIndex(DayIndexOf(d)) == d
  {
  }

  /** Distinct indices give distinct days. */
  lemma DayOfWeekInjective(i: DayIndex, j: DayIndex)
    requires DayOfWeekFromIndex(i) == DayOfWeekFromIndex(j)
    ensures i == j
  {
    assert DayIndexOf(DayOfWeekFromIndex(i)) == i;
  }
}

=== FILE: booking.dfy ===
/**
 Booking a match: after looking up the entry and the slot and rejecting a slot
 already booked, one atomic unit of work creates the appointment, marks the
 slot booked and marks the entry booked. Any failure of that unit leaves the
 store as it was.
 */
module Booking {
  import opened Domain

  /** The rows the booking reads and writes, keyed by id. */
  datatype Store = Store(
    entries: map<Id, Entry>,
    slots: map<Id, Slot>,
    appointments: map<Id, Appointment>)

  /** Every row is stored under its own primary key, as the database guarantees. */
  predicate Valid(st: Store) {
    && (forall k :: k in st.entries ==> st.entries[k].id == k)
    && (forall k :: k in st.slots ==> st.slots[k].id == k)
    && (forall k :: k in st.appointments ==> st.appointments[k].id == k)
  }

  /** How the storage layer may fail while the unit of work runs. */
  datatype Fault =
    | NoFault
    | ErrorThrown(message: string)  // an `Error` object carrying a message
    | OtherThrown                   // a thrown value that is not an `Error`

  datatype Outcome = Success(appointmentId: Id) | Failure(error: string)

  datatype Booking = Booking(outcome: Outcome, store: Store)

  const EntryNotFound: string := "Waitlist entry not found"
  const SlotNotFound: string := "Slot not found"
  const SlotAlreadyBooked: string := "Slot is already booked"
  const UnknownError: string := "Unknown error"

  /** The appointment created from `e` and `s`. */
  function AppointmentFor(id: Id, e: Entry, s: Slot): (a: Appointment)
    ensures NewAppointmentOf(a, id, e, s)
  {
    Appointment(id, e.patient.id, s.practitioner.id, s.business.id, s.appointmentType.id,
                s.startsAt, s.endsAt, Scheduled, Some(e.id))
  }

  /** `a` is appointment `id` booked from entry `e` into slot `s`. */
  predicate NewAppointmentOf(a: Appointment, id: Id, e: Entry, s: Slot) {
    && a.id == id
    && a.patientId == e.patient.id
    && a.practitionerId == s.practitioner.id
    && a.businessId == s.business.id
    && a.appointmentTypeId == s.appointmentType.id
    && a.startsAt == s.startsAt && a.endsAt == s.endsAt
    && a.status == Scheduled
    && a.bookedFromWaitlistId == Some(e.id)
  }

  /** The three writes of a successful booking, and nothing else. */
  predicate BookedTransition(st: Store, st': Store, entryId: Id, slotId: Id, appointmentId: Id, now: int)
    requires entryId in st.entries && slotId in st.slots
  {
    var e := st.entries[entryId];
    var s := st.slots[slotId];
    // exactly one new appointment, copied from the entry and the slot
    && st'.appointments.Keys == st.appointments.Keys + {appointmentId}
    && appointmentId !in st.appointments
    && (forall a :: a in st.appointments ==> st'.appointments[a] == st.appointments[a])
    && NewAppointmentOf(st'.appointments[appointmentId], appointmentId, e, s)
    // the slot is now booked; no other slot changes
    && st'.slots.Keys == st.slots.Keys
    && st'.slots[slotId].isBooked
    && st'.slots[slotId] == s.(isBooked := st'.slots[slotId].isBooked)
    && (forall k :: k in st.slots && k != slotId ==> st'.slots[k] == st.slots[k])
    // the entry is now booked at `now`; no other entry changes
    && st'.entries.Keys == st.entries.Keys
    && st'.entries[entryId].status == Booked
    && st'.entries[entryId].bookedAt == Some(now)
    && st'.entries[entryId] == e.(status := Booked, bookedAt := Some(now))
    && (forall k :: k in st.entries && k != entryId ==> st'.entries[k] == st.entries[k])
  }

  /** The error message a caught failure turns into. */
  function FaultMessage(f: Fault): (m: string)
    requires f != NoFault
    ensures f.ErrorThrown? ==> m == f.message
    ensures f == OtherThrown ==> m == UnknownError
  {
    match f
    case ErrorThrown(message) => message
    case OtherThrown => UnknownError
  }

  /**
   Books slot `slotId` for entry `entryId`. `appointmentId` is the id the store
   assigns to the new appointment, `now` the booking time, and `fault` a
   failure of the storage layer during the unit of work, if any.
   */
  function BookMatch(st: Store, entryId: Id, slotId: Id, appointmentId: Id, now: int, fault: Fault): (r: Booking)
    requires appointmentId !in st.appointments
    ensures entryId !in st.entries ==> r == Booking(Failure(EntryNotFound), st)
    ensures entryId in st.entries && slotId !in st.slots ==> r == Booking(Failure(SlotNotFound), st)
    ensures entryId in st.entries && slotId in st.slots && st.slots[slotId].isBooked
      ==> r == Booking(Failure(SlotAlreadyBooked), st)
    ensures entryId in st.entries && slotId in st.slots && !st.slots[slotId].isBooked && fault != NoFault
      ==> r == Booking(Failure(FaultMessage(fault)), st)
    ensures r.outcome.Success? <==>
      entryId in st.entries && slotId in st.slots && !st.slots[slotId].isBooked && fault == NoFault
    ensures r.outcome.Failure? ==> r.store == st
    ensures r.outcome.Success? ==>
      && r.outcome.appointmentId == appointmentId
      && BookedTransition(st, r.store, entryId, slotId, appointmentId, now)
    ensures r.outcome.Success? && Valid(st) ==>
      && r.store.appointments[appointmentId].bookedFromWaitlistId == Some(entryId)
      && r.store.entries[entryId].id == entryId && r.store.slots[slotId].id == slotId
  {
    if entryId !in st.entries then Booking(Failure(EntryNotFound), st)
    else if slotId !in st.slots then Booking(Failure(SlotNotFound), st)
    else
      var e := st.entries[entryId];
      var s := st.slots[slotId];
      if s.isBooked then Booking(Failure(SlotAlreadyBooked), st)
      else if fault != NoFault then Booking(Failure(FaultMessage(fault)), st)
      else
        var st' := Store(
          st.entries[entryId := e.(status := Booked, bookedAt := Some(now))],
          st.slots[slotId := s.(isBooked := true)],
          st.appointments[appointmentId := AppointmentFor(appointmentId, e, s)]);
        Booking(Success(appointmentId), st')
  }

  /** A booking, successful or not, keeps every row under its own key. */
  lemma BookingKeepsStoreValid(st: Store, entryId: Id, slotId: Id, appointmentId: Id, now: int, fault: Fault)
    requires appointmentId !in st.appointments
    requires Valid(st)
    ensures Valid(BookMatch(st, entryId, slotId, appointmentId, now, fault).store)
  {
  }

  /** A successful booking adds exactly one appointment. */
  lemma BookingAddsOneAppointment(st: Store, entryId: Id, slotId: Id, appointmentId: Id, now: int)
    requires appointmentId !in st.appointments
    requires BookMatch(st, entryId, slotId, appointmentId, now, NoFault).outcome.Success?
    ensures |BookMatch(st, entryId, slotId, appointmentId, now, NoFault).store.appointments|
         == |st.appointments| + 1
  {
    var st' := BookMatch(st, entryId, slotId, appointmentId, now, NoFault).store;
    assert st'.appointments.Keys == st.appointments.Keys + {appointmentId};
  }

  /** Once a slot has been booked, every later attempt on it by a stored entry fails as already booked and changes nothing. */
  lemma SecondBookingFails(
    st: Store, entryId: Id, slotId: Id, appointmentId: Id, now: int,
    entryId2: Id, appointmentId2: Id, now2: int, fault2: Fault)
    requires appointmentId !in st.appointments
    requires BookMatch(st, entryId, slotId, appointmentId, now, NoFault).outcome.Success?
    requires entryId2 in st.entries
    requires appointmentId2 !in BookMatch(st, entryId, slotId, appointmentId, now, NoFault).store.appointments
    ensures var st' := BookMatch(st, entryId, slotId, appointmentId, now, NoFault).store;
      BookMatch(st', entryId2, slotId, appointmentId2, now2, fault2) == Booking(Failure(SlotAlreadyBooked), st')
  {
  }

  /** The entry's status is not consulted: a cancelled entry can still be booked onto a free slot. */
  lemma CancelledEntryCanBeBooked(st: Store, entryId: Id, slotId: Id, appointmentId: Id, now: int)
    requires appointmentId !in st.appointments
    requires entryId in st.entries && st.entries[entryId].status == Cancelled
    requires slotId in st.slots && !st.slots[slotId].isBooked
    ensures BookMatch(st, entryId, slotId, appointmentId, now, NoFault).outcome == Success(appointmentId)
  {
  }
}

=== FILE: controller.dfy ===
/**
 The matching endpoints: each hands the ranking or the booking to the client,
 reshaped into response views, and turns failures into HTTP errors.
 */
module MatchingController {
  import opened Domain
  import Scoring
  import Ranking
  import Booking

  const BadRequest: int := 400
  const NotFound: int := 404

  const IdsRequired: string := "waitlistEntryId and slotId are required"
  const BookingFailed: string := "Booking failed"
  const NoMatchesForEntry: string := "No matches found for this waitlist entry"
  const BookedFromWaitlist: string := "Appointment booked successfully from waitlist"

  /** A handler's reply: a body, or the HTTP error it throws. */
  datatype Response<T> = Ok(body: T) | HttpError(status: int, message: string)

  datatype PatientView = PatientView(id: Id, name: string, email: Option<string>, phone: Option<string>)

  datatype EntryView = EntryView(
    id: Id,
    patient: PatientView,
    appointmentType: AppointmentType,
    urgency: Urgency,
    notes: Option<string>,
    createdAt: int,
    expiresAt: int)

  datatype PractitionerView = PractitionerView(id: Id, name: string, designation: Option<string>)

  datatype SlotView = SlotView(
    id: Id,
    practitioner: PractitionerView,
    business: Business,
    appointmentType: AppointmentType,
    startsAt: int,
    endsAt: int,
    duration: int)

  /** One match as a client sees it; the per-entry endpoint leaves the entry out. */
  datatype MatchView = MatchView(
    id: string,
    score: int,
    breakdown: Scoring.Breakdown,
    matchReasons: seq<string>,
    waitlistEntry: Option<EntryView>,
    slot: SlotView)

  datatype AllMatches = AllMatches(count: nat, matches: seq<MatchView>)

  datatype EntryMatchesReply = EntryMatchesReply(waitlistEntryId: Id, count: nat, matches: seq<MatchView>)

  /** The request body of a booking; either field may be absent. */
  datatype BookRequest = BookRequest(waitlistEntryId: Option<string>, slotId: Option<string>)

  datatype BookReply = BookReply(success: bool, appointmentId: Id, message: string)

  /** The practitioner's full name: title (when set and non-empty), first name and last name. */
  function FullName(p: Practitioner): (name: string)
    ensures !Truthy(p.title) ==> name == p.firstName + " " + p.lastName
    ensures Truthy(p.title) ==> name == p.title.value + " " + p.firstName + " " + p.lastName
  {
    if Truthy(p.title) then p.title.value + " " + p.firstName + " " + p.lastName
    else p.firstName + " " + p.lastName
  }

  /**
   The full name agrees with the short label the scoring and the dashboard use
   exactly when the practitioner has no title; with a title the full name also
   carries the first name.
   */
  lemma FullNameVersusLabel(p: Practitioner)
    ensures FullName(p) == Scoring.PractitionerLabel(p) <==> !Truthy(p.title)
    ensures |FullName(p)| == |Scoring.PractitionerLabel(p)| + (if Truthy(p.title) then |p.firstName| + 1 else 0)
  {
    if Truthy(p.title) {
      assert |FullName(p)| == |p.title.value| + 1 + |p.firstName| + 1 + |p.lastName|;
      assert |Scoring.PractitionerLabel(p)| == |p.title.value| + 1 + |p.lastName|;
    }
  }

  function SlotViewOf(s: Slot): (v: SlotView)
    ensures v.id == s.id && v.practitioner.id == s.practitioner.id
    ensures v.practitioner.name == FullName(s.practitioner)
    ensures v.practitioner.designation == s.practitioner.designation
    ensures v.business == s.business && v.appointmentType == s.appointmentType
    ensures v.startsAt == s.startsAt && v.endsAt == s.endsAt && v.duration == s.duration
  {
    SlotView(
      s.id,
      PractitionerView(s.practitioner.id, FullName(s.practitioner), s.practitioner.designation),
      s.business, s.appointmentType, s.startsAt, s.endsAt, s.duration)
  }

  function EntryViewOf(e: Entry): (v: EntryView)
    ensures v.id == e.id
    ensures v.patient == PatientView(e.patient.id, e.patient.Name(), e.patient.email, e.patient.phone)
    ensures v.appointmentType == e.appointmentType && v.urgency == e.urgency
    ensures v.notes == e.notes
    ensures v.createdAt == e.createdAt && v.expiresAt == e.expiresAt
  {
    EntryView(
      e.id,
      PatientView(e.patient.id, e.patient.Name(), e.patient.email, e.patient.phone),
      e.appointmentType, e.urgency, e.notes, e.createdAt, e.expiresAt)
  }

  /** The view of `m`; `withEntry` says whether the entry is embedded. */
  function MatchViewOf(m: Ranking.Match, withEntry: bool): (v: MatchView)
    ensures v.id == Ranking.MatchKey(m)
    ensures v.score == m.score && v.breakdown == m.breakdown
    ensures |v.matchReasons| == |m.reasons|
    ensures forall i :: 0 <= i < |m.reasons| ==> v.matchReasons[i] == Scoring.Text(m.reasons[i])
    ensures v.waitlistEntry.Some? <==> withEntry
    ensures withEntry ==> v.waitlistEntry.value == EntryViewOf(m.entry)
    ensures v.slot == SlotViewOf(m.slot)
  {
    MatchView(
      Ranking.MatchKey(m), m.score, m.breakdown, Scoring.Texts(m.reasons),
      if withEntry then Some(EntryViewOf(m.entry)) else None,
      SlotViewOf(m.slot))
  }

  function Views(ms: seq<Ranking.Match>, withEntry: bool): (vs: seq<MatchView>)
    ensures |vs| == |ms|
    ensures forall i :: 0 <= i < |ms| ==> vs[i] == MatchViewOf(ms[i], withEntry)
  {
    seq(|ms|, i requires 0 <= i < |ms| => MatchViewOf(ms[i], withEntry))
  }

  /** All ranked matches, counted and viewed in ranking order. */
  function FindAllMatches(entries: seq<Entry>, slots: seq<Slot>, now: int): (r: AllMatches)
    ensures var ms := Ranking.FindMatches(entries, slots, now);
      && r.count == |ms| == |r.matches|
      && (forall i :: 0 <= i < |ms| ==> r.matches[i] == MatchViewOf(ms[i], true))
  {
    var ms := Ranking.FindMatches(entries, slots, now);
    AllMatches(|ms|, Views(ms, true))
  }

  /** The views come out highest score first, each carrying the entry it pairs. */
  lemma AllMatchesRanked(entries: seq<Entry>, slots: seq<Slot>, now: int)
    ensures var vs := FindAllMatches(entries, slots, now).matches;
      forall i, j :: 0 <= i < j < |vs| ==> vs[i].score >= vs[j].score && vs[i].waitlistEntry.Some?
  {
  }

  /** The matches of one entry; an empty ranking is answered with 404. */
  function FindMatchesForEntry(entries: map<Id, Entry>, id: Id, slots: seq<Slot>, now: int): (r: Response<EntryMatchesReply>)
    ensures var ms := Ranking.FindMatchesForEntry(entries, id, slots, now);
      && (r.HttpError? <==> |ms| == 0)
      && (r.HttpError? ==> r == HttpError(NotFound, NoMatchesForEntry))
      && (r.Ok? ==>
            && r.body.waitlistEntryId == id
            && r.body.count == |ms| == |r.body.matches|
            && (forall i :: 0 <= i < |ms| ==> r.body.matches[i] == MatchViewOf(ms[i], false)))
  {
    var ms := Ranking.FindMatchesForEntry(entries, id, slots, now);
    if |ms| == 0 then HttpError(NotFound, NoMatchesForEntry)
    else Ok(EntryMatchesReply(id, |ms|, Views(ms, false)))
  }

  /** An unknown id and a known entry with nothing to offer get the same 404. */
  lemma UnknownAndUnmatchedLookAlike(entries: map<Id, Entry>, id: Id, other: Id, slots: seq<Slot>, now: int)
    requires other !in entries
    requires Ranking.FindMatchesForEntry(entries, id, slots, now) == []
    ensures FindMatchesForEntry(entries, id, slots, now) == FindMatchesForEntry(entries, other, slots, now)
    ensures FindMatchesForEntry(entries, other, slots, now) == HttpError(NotFound, NoMatchesForEntry)
  {
  }

  /** With the entry stored under its own id, every view id of a successful reply starts with that id and a dash. */
  lemma EntryMatchIdsCarryEntryId(entries: map<Id, Entry>, id: Id, slots: seq<Slot>, now: int)
    requires id in entries ==> entries[id].id == id
    ensures var r := FindMatchesForEntry(entries, id, slots, now);
      r.Ok? ==> forall i :: 0 <= i < |r.body.matches| ==>
        |r.body.matches[i].id| > |id| && r.body.matches[i].id[..|id| + 1] == id + "-"
  {
    var ms := Ranking.FindMatchesForEntry(entries, id, slots, now);
    forall i | 0 <= i < |ms|
      ensures |Ranking.MatchKey(ms[i])| > |id| && Ranking.MatchKey(ms[i])[..|id| + 1] == id + "-"
    {
      assert ms[i] in ms;
      MatchKeyPrefix(ms[i]);
    }
  }

  lemma MatchKeyPrefix(m: Ranking.Match)
    ensures |Ranking.MatchKey(m)| > |m.entry.id|
    ensures Ranking.MatchKey(m)[..|m.entry.id| + 1] == m.entry.id + "-"
  {
    assert Ranking.MatchKey(m) == (m.entry.id + "-") + m.slot.id;
  }

  /**
   Books the match named in `req`: both ids must be present and non-empty;
   a failed booking is a 400 carrying the service's error, or a generic
   message when that error is empty. The store after the call is the second
   component.
   */
  function BookMatch(st: Booking.Store, req: BookRequest, appointmentId: Id, now: int, fault: Booking.Fault)
    : (r: (Response<BookReply>, Booking.Store))
    requires appointmentId !in st.appointments
    ensures !Truthy(req.waitlistEntryId) || !Truthy(req.slotId) ==> r == (HttpError(BadRequest, IdsRequired), st)
    ensures Truthy(req.waitlistEntryId) && Truthy(req.slotId) ==>
      var b := Booking.BookMatch(st, req.waitlistEntryId.value, req.slotId.value, appointmentId, now, fault);
      && r.1 == b.store
      && (b.outcome.Success? ==> r.0 == Ok(BookReply(true, appointmentId, BookedFromWaitlist)))
      && (b.outcome.Failure? ==>
            r.0 == HttpError(BadRequest, if b.outcome.error == "" then BookingFailed else b.outcome.error))
  {
    if !Truthy(req.waitlistEntryId) || !Truthy(req.slotId) then (HttpError(BadRequest, IdsRequired), st)
    else
      var b := Booking.BookMatch(st, req.waitlistEntryId.value, req.slotId.value, appointmentId, now, fault);
      match b.outcome
      case Success(aid) => (Ok(BookReply(true, aid, BookedFromWaitlist)), b.store)
      case Failure(error) => (HttpError(BadRequest, if error == "" then BookingFailed else error), b.store)
  }

  /** Every error reply is a 400 and leaves the store untouched. */
  lemma BookErrorsChangeNothing(st: Booking.Store, req: BookRequest, appointmentId: Id, now: int, fault: Booking.Fault)
    requires appointmentId !in st.appointments
    ensures var r := BookMatch(st, req, appointmentId, now, fault);
      r.0.HttpError? ==> r.0.status == BadRequest && r.1 == st
  {
  }

  /** The endpoint succeeds exactly when both ids are given and name an entry and a free slot, and no fault occurs. */
  lemma BookSucceedsIff(st: Booking.Store, req: BookRequest, appointmentId: Id, now: int, fault: Booking.Fault)
    requires appointmentId !in st.appointments
    ensures BookMatch(st, req, appointmentId, now, fault).0.Ok? <==>
      && Truthy(req.waitlistEntryId) && Truthy(req.slotId)
      && req.waitlistEntryId.value in st.entries
      && req.slotId.value in st.slots && !st.slots[req.slotId.value].isBooked
      && fault == Booking.NoFault
  {
  }

  /** A storage error with an empty message surfaces as the generic booking failure. */
  lemma EmptyErrorBecomesBookingFailed(st: Booking.Store, entryId: Id, slotId: Id, appointmentId: Id, now: int)
    requires appointmentId !in st.appointments
    requires entryId != "" && slotId != ""
    requires entryId in st.entries && slotId in st.slots && !st.slots[slotId].isBooked
    ensures BookMatch(st, BookRequest(Some(entryId), Some(slotId)), appointmentId, now, Booking.ErrorThrown(""))
         == (HttpError(BadRequest, BookingFailed), st)
  {
  }
}

=== FILE: dashboard.dfy ===
/**
 The dashboard's views of the ranking: the top matches, summarised for the
 matches table, and the number of potential matches in the overview.
 */
module Dashboard {
  import opened Domain
  import Scoring
  import Ranking

  datatype PatientRef = PatientRef(id: Id, name: string)

  datatype SlotSummary = SlotSummary(id: Id, practitioner: string, business: string, startsAt: int)

  datatype TopMatch = TopMatch(
    id: string,
    score: int,
    matchReasons: seq<string>,
    patient: PatientRef,
    appointmentType: string,
    appointmentTypeDuration: int,
    appointmentTypeColor: string,
    urgency: Urgency,
    createdAt: int,
    slot: SlotSummary,
    waitlistEntryId: Id,
    slotId: Id)

  /** One row of the top-matches table. */
  function Summarize(m: Ranking.Match): (t: TopMatch)
    ensures t.id == Ranking.MatchKey(m)
    ensures t.waitlistEntryId == m.entry.id && t.slotId == m.slot.id && t.slot.id == m.slot.id
    ensures t.score == m.score
    ensures |t.matchReasons| == |m.reasons|
    ensures forall i :: 0 <= i < |m.reasons| ==> t.matchReasons[i] == Scoring.Text(m.reasons[i])
    ensures t.patient == PatientRef(m.entry.patient.id, m.entry.patient.Name())
    ensures t.slot.practitioner == Scoring.PractitionerLabel(m.slot.practitioner)
    ensures t.slot.business == m.slot.business.name && t.slot.startsAt == m.slot.startsAt
    ensures t.appointmentType == m.entry.appointmentType.name
    ensures t.appointmentTypeDuration == m.entry.appointmentType.duration
    ensures t.appointmentTypeColor == m.entry.appointmentType.color
    ensures t.urgency == m.entry.urgency && t.createdAt == m.entry.createdAt
  {
    TopMatch(
      Ranking.MatchKey(m),
      m.score,
      Scoring.Texts(m.reasons),
      PatientRef(m.entry.patient.id, m.entry.patient.Name()),
      m.entry.appointmentType.name,
      m.entry.appointmentType.duration,
      m.entry.appointmentType.color,
      m.entry.urgency,
      m.entry.createdAt,
      SlotSummary(m.slot.id, Scoring.PractitionerLabel(m.slot.practitioner), m.slot.business.name, m.slot.startsAt),
      m.entry.id,
      m.slot.id)
  }

  /** The first `limit` matches, summarised, in ranking order. */
  function TopMatches(matches: seq<Ranking.Match>, limit: nat): (r: seq<TopMatch>)
    ensures |r| == if limit < |matches| then limit else |matches|
    ensures forall i :: 0 <= i < |r| ==> r[i] == Summarize(matches[i])
  {
    var n := if limit < |matches| then limit else |matches|;
    seq(n, i requires 0 <= i < n => Summarize(matches[i]))
  }

  /** The dashboard's top matches: a prefix of the full ranking. */
  function GetTopMatches(entries: seq<Entry>, slots: seq<Slot>, now: int, limit: nat): (r: seq<TopMatch>)
    ensures var all := Ranking.FindMatches(entries, slots, now);
      && |r| == (if limit < |all| then limit else |all|)
      && (forall i :: 0 <= i < |r| ==> r[i] == Summarize(all[i]))
  {
    TopMatches(Ranking.FindMatches(entries, slots, now), limit)
  }

  /** No match left out of the top list scores above one that is in it. */
  lemma TopMatchesAreBest(entries: seq<Entry>, slots: seq<Slot>, now: int, limit: nat)
    ensures var top := GetTopMatches(entries, slots, now, limit);
      var all := Ranking.FindMatches(entries, slots, now);
      forall i, j :: 0 <= i < |top| <= j < |all| ==> top[i].score >= all[j].score
  {
  }

  /** 1 when slot `s` scores above zero for `e`, else 0. */
  function Tally(e: Entry, s: Slot, now: int): nat {
    if Ranking.Evaluate(e, s, now).score > 0 then 1 else 0
  }

  /** Number of the given slots that score above zero for `e`. */
  function PositiveSlotCount(e: Entry, slots: seq<Slot>, now: int): nat {
    if |slots| == 0 then 0
    else Tally(e, slots[0], now) + PositiveSlotCount(e, slots[1..], now)
  }

  /** Number of positive-scoring pairs of a waitlist entry and an open slot of its type. */
  function PositivePairCount(waitlist: seq<Entry>, slots: seq<Slot>, now: int): nat {
    if |waitlist| == 0 then 0
    else
      var e := waitlist[|waitlist| - 1];
      PositivePairCount(waitlist[..|waitlist| - 1], slots, now)
        + PositiveSlotCount(e, Ranking.AvailableSlots(slots, e.appointmentType.id, now), now)
  }

  lemma {:induction false} PositiveSlotCountSnoc(e: Entry, slots: seq<Slot>, now: int)
    requires |slots| > 0
    ensures PositiveSlotCount(e, slots, now)
         == PositiveSlotCount(e, slots[..|slots| - 1], now) + Tally(e, slots[|slots| - 1], now)
    decreases |slots|
  {
    if |slots| > 1 {
      assert slots[1..][..|slots[1..]| - 1] == slots[..|slots| - 1][1..];
      PositiveSlotCountSnoc(e, slots[1..], now);
    }
  }

  lemma {:induction false} EntryMatchesCount(e: Entry, slots: seq<Slot>, now: int)
    ensures |Ranking.EntryMatches(e, slots, now)| == PositiveSlotCount(e, slots, now)
    decreases |slots|
  {
    if |slots| > 0 {
      EntryMatchesCount(e, slots[..|slots| - 1], now);
      PositiveSlotCountSnoc(e, slots, now);
    }
  }

  lemma {:induction false} CandidatesCount(waitlist: seq<Entry>, slots: seq<Slot>, now: int)
    ensures |Ranking.Candidates(waitlist, slots, now)| == PositivePairCount(waitlist, slots, now)
    decreases |waitlist|
  {
    if |waitlist| > 0 {
      var e := waitlist[|waitlist| - 1];
      CandidatesCount(waitlist[..|waitlist| - 1], slots, now);
      EntryMatchesCount(e, Ranking.AvailableSlots(slots, e.appointmentType.id, now), now);
    }
  }

  /** The overview's potential-match figure: the number of positive-scoring pairs the ranking returns. */
  function PotentialMatches(entries: seq<Entry>, slots: seq<Slot>, now: int): (n: nat)
    ensures n == PositivePairCount(Ranking.ActiveWaitlist(entries, now), slots, now)
  {
    CandidatesCount(Ranking.ActiveWaitlist(entries, now), slots, now);
    |Ranking.FindMatches(entries, slots, now)|
  }
}

=== FILE: decimal.dfy ===
/**
 Decimal rendering of natural numbers, as a template literal prints an integer,
 with the reading it is the inverse of.
 */
module Decimal {

  predicate IsDigit(c: char) {
    '0' <= c <= '9'
  }

  predicate AllDigits(s: string) {
    forall i :: 0 <= i < |s| ==> IsDigit(s[i])
  }

  function DigitChar(n: nat): (c: char)
    requires n < 10
    ensures IsDigit(c)
    ensures c as int - '0' as int == n
  {
    ('0' as int + n) as char
  }

  /** Shortest decimal numeral of n: at least one digit and no leading zero. */
  function NatToDecimal(n: nat): (s: string)
    ensures 1 <= |s|
    ensures AllDigits(s)
    ensures s[0] == '0' ==> n == 0
    decreases n
  {
    if n < 10 then [DigitChar(n)] else NatToDecimal(n / 10) + [DigitChar(n % 10)]
  }

  /** The number a string of digits denotes. */
  function DecimalValue(s: string): nat
    requires AllDigits(s)
  {
    if |s| == 0 then 0
    else DecimalValue(s[..|s| - 1]) * 10 + (s[|s| - 1] as int - '0' as int)
  }

  /** Reading back a rendered number gives the number. */
  lemma {:induction false} DecimalRoundTrip(n: nat)
    ensures DecimalValue(NatToDecimal(n)) == n
    decreases n
  {
    if n >= 10 {
      var s := NatToDecimal(n);
      var prefix := NatToDecimal(n / 10);
      assert s == prefix + [DigitChar(n % 10)];
      assert s[..|s| - 1] == prefix;
      DecimalRoundTrip(n / 10);
    }
  }
}

=== FILE: domain.dfy ===
/**
 The entities the matching engine reads and writes: waitlist entries, available
 slots, appointments and the small records they refer to. Timestamps are epoch
 milliseconds; the local day of week and hour of a slot's start are carried as
 integers because the engine reads them through the server's local clock.
 */
module Domain {

  type Id = string

  datatype Option<T> = None | Some(value: T)

  /** JavaScript truthiness of a nullable string: null and "" are falsy. */
  predicate Truthy(s: Option<string>) {
    s.Some? && s.value != ""
  }

  datatype DayOfWeek = Mon | Tue | Wed | Thu | Fri | Sat | Sun

  datatype TimeOfDay = Morning | Afternoon | Evening

  datatype Urgency = Low | Normal | High | Urgent

  datatype EntryStatus = Active | Booked | Expired | Cancelled

  datatype AppointmentStatus = Scheduled | Confirmed | Arrived | InProgress | Completed | CancelledAppointment | NoShow

  /** Index returned by `Date.getDay`: 0 is Sunday, 6 is Saturday. */
  type DayIndex = d: int | 0 <= d < 7

  /** Hour returned by `Date.getHours`. */
  type Hour = h: int | 0 <= h < 24

  const MillisPerDay: int := 1000 * 60 * 60 * 24

  function DayName(d: DayOfWeek): string {
    match d
    case Mon => "mon"
    case Tue => "tue"
    case Wed => "wed"
    case Thu => "thu"
    case Fri => "fri"
    case Sat => "sat"
    case Sun => "sun"
  }

  function TimeOfDayName(t: TimeOfDay): string {
    match t
    case Morning => "morning"
    case Afternoon => "afternoon"
    case Evening => "evening"
  }

  function UrgencyName(u: Urgency): string {
    match u
    case Low => "low"
    case Normal => "normal"
    case High => "high"
    case Urgent => "urgent"
  }

  datatype Patient = Patient(
    id: Id,
    firstName: string,
    lastName: string,
    email: Option<string>,
    phone: Option<string>)
  {
    /** The display name: first and last name, separated by one space. */
    function Name(): string {
      firstName + " " + lastName
    }
  }

  datatype AppointmentType = AppointmentType(id: Id, name: string, duration: int, color: string)

  datatype Practitioner = Practitioner(
    id: Id,
    firstName: string,
    lastName: string,
    title: Option<string>,
    designation: Option<string>)

  datatype Business = Business(id: Id, name: string, city: string)

  /** A waitlist entry with its preference relations; an empty preference list means "any". */
  datatype Entry = Entry(
    id: Id,
    patient: Patient,
    appointmentType: AppointmentType,
    urgency: Urgency,
    status: EntryStatus,
    availableDays: seq<DayOfWeek>,
    preferredTimes: seq<TimeOfDay>,
    preferredPractitioners: seq<Id>,
    preferredBusinesses: seq<Id>,
    notes: Option<string>,
    createdAt: int,
    expiresAt: int,
    bookedAt: Option<int>)

  datatype Slot = Slot(
    id: Id,
    practitioner: Practitioner,
    business: Business,
    appointmentType: AppointmentType,
    startsAt: int,
    endsAt: int,
    duration: int,
    startDay: DayIndex,
    startHour: Hour,
    isBooked: bool)

  datatype Appointment = Appointment(
    id: Id,
    patientId: Id,
    practitionerId: Id,
    businessId: Id,
    appointmentTypeId: Id,
    startsAt: int,
    endsAt: int,
    status: AppointmentStatus,
    bookedFromWaitlistId: Option<Id>)
}

=== FILE: ranking.dfy ===
/**
 Candidate enumeration and ranking: every active waitlist entry is paired with
 every open slot of its appointment type, pairs that score above zero are kept
 in entry-major, slot-minor order, and the list is stably sorted by score,
 highest first. Sequence order stands for the order the store's queries return
 (urgency then creation time for entries, start time for slots).
 */
module Ranking {
  import opened Domain
  import Scoring

  datatype Match = Match(
    entry: Entry,
    slot: Slot,
    score: int,
    breakdown: Scoring.Breakdown,
    reasons: seq<Scoring.Reason>)

  /**
   The scored pair of one entry and one slot. Its score is the total clamped at
   zero, so a pair kept for scoring above zero has passed the day filter.
   */
  function Evaluate(e: Entry, s: Slot, now: int): (m: Match)
    ensures m.entry == e && m.slot == s
    ensures m.breakdown.totalScore >= 0 ==> m.score == m.breakdown.totalScore
    ensures m.breakdown.totalScore < 0 ==> m.score == 0
    ensures m.score > 0 ==> !Scoring.DayRejected(e, s)
  {
    var r := Scoring.CalculateMatchScore(e, s, now);
    Match(e, s, r.score, r.breakdown, r.reasons)
  }

  /** Identifier of a match as shown to clients: entry id, a dash, slot id. */
  function MatchKey(m: Match): (k: string)
    ensures |k| == |m.entry.id| + 1 + |m.slot.id|
    ensures k[..|m.entry.id|] == m.entry.id && k[|m.entry.id|] == '-' && k[|m.entry.id| + 1..] == m.slot.id
  {
    m.entry.id + "-" + m.slot.id
  }

  /** With equal-length entry ids (as with UUIDs) the key determines the pair of ids. */
  lemma MatchKeyDeterminesIds(m1: Match, m2: Match)
    requires |m1.entry.id| == |m2.entry.id|
    requires MatchKey(m1) == MatchKey(m2)
    ensures m1.entry.id == m2.entry.id && m1.slot.id == m2.slot.id
  {
    var n := |m1.entry.id|;
    assert MatchKey(m1)[..n] == m1.entry.id;
    assert MatchKey(m2)[..n] == m2.entry.id;
    assert MatchKey(m1)[n + 1..] == m1.slot.id;
    assert MatchKey(m2)[n + 1..] == m2.slot.id;
  }

  /** Ids that themselves contain a dash can collide: "a-b" with "c" and "a" with "b-c". */
  lemma MatchKeyCollision(m1: Match, m2: Match)
    requires m1.entry.id == "a-b" && m1.slot.id == "c"
    requires m2.entry.id == "a" && m2.slot.id == "b-c"
    ensures MatchKey(m1) == MatchKey(m2)
  {
  }

  /** Entries the waitlist query returns: active and not expired at `now`, in table order. */
  function ActiveWaitlist(entries: seq<Entry>, now: int): (w: seq<Entry>)
    ensures forall e :: e in w <==> e in entries && e.status == Active && e.expiresAt > now
    ensures |w| <= |entries|
  {
    if |entries| == 0 then []
    else
      assert entries == [entries[0]] + entries[1..];
      var rest := ActiveWaitlist(entries[1..], now);
      if entries[0].status == Active && entries[0].expiresAt > now then [entries[0]] + rest else rest
  }

  /** Slots the slot query returns for one appointment type: unbooked and starting after `now`, in table order. */
  function AvailableSlots(slots: seq<Slot>, typeId: Id, now: int): (a: seq<Slot>)
    ensures forall s :: s in a <==> s in slots && s.appointmentType.id == typeId && !s.isBooked && s.startsAt > now
    ensures |a| <= |slots|
  {
    if |slots| == 0 then []
    else
      assert slots == [slots[0]] + slots[1..];
      var rest := AvailableSlots(slots[1..], typeId, now);
      var s := slots[0];
      if s.appointmentType.id == typeId && !s.isBooked && s.startsAt > now then [s] + rest else rest
  }

  /** The waitlist filter keeps the table's order: filtering a concatenation concatenates the filtered parts. */
  lemma {:induction false} ActiveWaitlistAppend(a: seq<Entry>, b: seq<Entry>, now: int)
    ensures ActiveWaitlist(a + b, now) == ActiveWaitlist(a, now) + ActiveWaitlist(b, now)
    decreases |a|
  {
    if |a| == 0 {
      assert a + b == b;
    } else {
      assert (a + b)[1..] == a[1..] + b;
      ActiveWaitlistAppend(a[1..], b, now);
    }
  }

  /** On one entry the waitlist filter keeps it exactly when it is active and unexpired. */
  lemma ActiveWaitlistSingleton(e: Entry, now: int)
    ensures ActiveWaitlist([e], now) == if e.status == Active && e.expiresAt > now then [e] else []
  {
  }

  /** The slot filter keeps the table's order: filtering a concatenation concatenates the filtered parts. */
  lemma {:induction false} AvailableSlotsAppend(a: seq<Slot>, b: seq<Slot>, typeId: Id, now: int)
    ensures AvailableSlots(a + b, typeId, now) == AvailableSlots(a, typeId, now) + AvailableSlots(b, typeId, now)
    decreases |a|
  {
    if |a| == 0 {
      assert a + b == b;
    } else {
      assert (a + b)[1..] == a[1..] + b;
      AvailableSlotsAppend(a[1..], b, typeId, now);
    }
  }

  /** On one slot the slot filter keeps it exactly when it has the type, is unbooked and lies in the future. */
  lemma AvailableSlotsSingleton(s: Slot, typeId: Id, now: int)
    ensures AvailableSlots([s], typeId, now)
         == if s.appointmentType.id == typeId && !s.isBooked && s.startsAt > now then [s] else []
  {
  }

  /** A ranked match carries the breakdown and reasons the scoring gives its pair. */
  lemma EvaluateCarriesScore(e: Entry, s: Slot, now: int)
    ensures var m := Evaluate(e, s, now);
      m.breakdown == Scoring.CalculateMatchScore(e, s, now).breakdown
      && m.reasons == Scoring.CalculateMatchScore(e, s, now).reasons
    ensures !Scoring.DayRejected(e, s) ==>
      Evaluate(e, s, now).breakdown == Scoring.ScoreBreakdown(e, s, now)
      && Evaluate(e, s, now).reasons == Scoring.ScoreReasons(e, s, now)
  {
  }

  /** `m` is the scored pair of its own entry and slot, and that score is positive. */
  predicate PositivelyScored(m: Match, now: int) {
    m == Evaluate(m.entry, m.slot, now) && m.score > 0
  }

  /** The positive-scoring matches of one entry against the given slots, in slot order. */
  function EntryMatches(e: Entry, slots: seq<Slot>, now: int): (ms: seq<Match>)
    ensures |ms| <= |slots|
    ensures forall i :: 0 <= i < |ms| ==> ms[i].entry == e && ms[i].score > 0
  {
    if |slots| == 0 then []
    else
      var m := Evaluate(e, slots[|slots| - 1], now);
      var prefix := EntryMatches(e, slots[..|slots| - 1], now);
      if m.score > 0 then prefix + [m] else prefix
  }

  /** An entry's kept matches are exactly its positive-scoring pairs with the given slots. */
  lemma {:induction false} EntryMatchesMembership(e: Entry, slots: seq<Slot>, now: int)
    ensures forall m :: m in EntryMatches(e, slots, now) ==> m.entry == e && m.slot in slots && PositivelyScored(m, now)
    ensures forall s :: s in slots && Evaluate(e, s, now).score > 0 ==> Evaluate(e, s, now) in EntryMatches(e, slots, now)
    decreases |slots|
  {
    if |slots| > 0 {
      var prefix := slots[..|slots| - 1];
      var last := slots[|slots| - 1];
      assert slots == prefix + [last];
      EntryMatchesMembership(e, prefix, now);
      var kept := EntryMatches(e, prefix, now);
      var m := Evaluate(e, last, now);
      assert EntryMatches(e, slots, now) == kept + (if m.score > 0 then [m] else []);
      forall x | x in EntryMatches(e, slots, now)
        ensures x.entry == e && x.slot in slots && PositivelyScored(x, now)
      {
        if x !in kept {
          assert x == m;
        }
      }
      forall t | t in slots && Evaluate(e, t, now).score > 0
        ensures Evaluate(e, t, now) in EntryMatches(e, slots, now)
      {
        if t !in prefix {
          assert t == last;
        }
      }
    }
  }

  /** Whether `m` is one of the pairs the enumeration keeps. */
  predicate IsCandidate(m: Match, waitlist: seq<Entry>, slots: seq<Slot>, now: int) {
    && m.entry in waitlist
    && m.slot in AvailableSlots(slots, m.entry.appointmentType.id, now)
    && PositivelyScored(m, now)
  }

  /** All kept pairs, entry-major and slot-minor, before sorting. */
  function Candidates(waitlist: seq<Entry>, slots: seq<Slot>, now: int): (ms: seq<Match>)
    ensures forall m :: m in ms ==> m.entry in waitlist && m.score > 0
  {
    if |waitlist| == 0 then []
    else
      var last := waitlist[|waitlist| - 1];
      Candidates(waitlist[..|waitlist| - 1], slots, now)
        + EntryMatches(last, AvailableSlots(slots, last.appointmentType.id, now), now)
  }

  /** The enumeration keeps exactly the positive-scoring pairs of a waitlist entry and an open slot of its type. */
  lemma {:induction false} CandidatesMembership(waitlist: seq<Entry>, slots: seq<Slot>, now: int)
    ensures forall m :: m in Candidates(waitlist, slots, now) ==> IsCandidate(m, waitlist, slots, now)
    ensures forall e, s ::
      e in waitlist && s in AvailableSlots(slots, e.appointmentType.id, now) && Evaluate(e, s, now).score > 0
      ==> Evaluate(e, s, now) in Candidates(waitlist, slots, now)
    decreases |waitlist|
  {
    if |waitlist| > 0 {
      var prefix := waitlist[..|waitlist| - 1];
      var last := waitlist[|waitlist| - 1];
      assert waitlist == prefix + [last];
      CandidatesMembership(prefix, slots, now);
      EntryMatchesMembership(last, AvailableSlots(slots, last.appointmentType.id, now), now);
    }
  }

  predicate SortedByScore(ms: seq<Match>) {
    forall i, j :: 0 <= i < j < |ms| ==> ms[i].score >= ms[j].score
  }

  /** The matches of `ms` with score exactly `k`, in their order in `ms`. */
  function WithScore(ms: seq<Match>, k: int): seq<Match> {
    if |ms| == 0 then []
    else (if ms[0].score == k then [ms[0]] else []) + WithScore(ms[1..], k)
  }

  /** Putting a match that scores at least as high as every other in front keeps a list sorted. */
  lemma SortedCons(x: Match, rest: seq<Match>)
    requires SortedByScore(rest)
    requires forall y :: y in rest ==> y.score <= x.score
    ensures SortedByScore([x] + rest)
  {
    var r := [x] + rest;
    forall i, j | 0 <= i < j < |r|
      ensures r[i].score >= r[j].score
    {
      assert r[j] == rest[j - 1];
      if i > 0 {
        assert r[i] == rest[i - 1];
      }
    }
  }

  /** Inserts `m` before the first element that scores no more than it: ahead of every equal score. */
  function Insert(m: Match, ms: seq<Match>): (r: seq<Match>)
    requires SortedByScore(ms)
    ensures SortedByScore(r)
    ensures multiset(r) == multiset(ms) + multiset{m}
    ensures forall y :: y in r ==> y == m || y in ms
  {
    if |ms| == 0 || m.score >= ms[0].score then
      SortedCons(m, ms);
      [m] + ms
    else
      var rest := Insert(m, ms[1..]);
      InsertBehindHead(m, ms, rest);
      [ms[0]] + rest
  }

  /** Putting the head back in front of the insertion into the tail gives a sorted permutation. */
  lemma InsertBehindHead(m: Match, ms: seq<Match>, rest: seq<Match>)
    requires SortedByScore(ms) && |ms| > 0 && m.score < ms[0].score
    requires SortedByScore(rest)
    requires multiset(rest) == multiset(ms[1..]) + multiset{m}
    requires forall y :: y in rest ==> y == m || y in ms[1..]
    ensures SortedByScore([ms[0]] + rest)
    ensures multiset([ms[0]] + rest) == multiset(ms) + multiset{m}
    ensures forall y :: y in [ms[0]] + rest ==> y == m || y in ms
  {
    var tail := ms[1..];
    assert ms == [ms[0]] + tail;
    forall y | y in rest
      ensures y.score <= ms[0].score
    {
      if y != m {
        var i :| 0 <= i < |tail| && tail[i] == y;
        assert y == ms[i + 1];
      }
    }
    SortedCons(ms[0], rest);
  }

  /** Insertion sort by descending score; equal scores keep their input order. */
  function SortByScore(ms: seq<Match>): (r: seq<Match>)
    ensures SortedByScore(r)
    ensures multiset(r) == multiset(ms)
  {
    if |ms| == 0 then []
    else
      var rest := SortByScore(ms[1..]);
      assert multiset(ms) == multiset{ms[0]} + multiset(ms[1..]) by {
        assert ms == [ms[0]] + ms[1..];
      }
      Insert(ms[0], rest)
  }

  /** Being a permutation, the sorted list has the same members and length as its input. */
  lemma SortKeepsMembers(ms: seq<Match>)
    ensures forall x :: x in SortByScore(ms) <==> x in ms
    ensures |SortByScore(ms)| == |ms|
  {
    var r := SortByScore(ms);
    assert |r| == |multiset(r)| == |multiset(ms)| == |ms|;
    forall x
      ensures x in r <==> x in ms
    {
      assert x in r <==> x in multiset(r);
      assert x in ms <==> x in multiset(ms);
    }
  }

  lemma WithScoreCons(x: Match, xs: seq<Match>, k: int)
    ensures WithScore([x] + xs, k) == (if x.score == k then [x] else []) + WithScore(xs, k)
  {
    assert ([x] + xs)[1..] == xs;
  }

  lemma {:induction false} InsertKeepsScoreClass(m: Match, ms: seq<Match>, k: int)
    requires SortedByScore(ms)
    ensures WithScore(Insert(m, ms), k) == WithScore([m] + ms, k)
    decreases |ms|
  {
    if |ms| > 0 && m.score < ms[0].score {
      var tail := ms[1..];
      assert ms == [ms[0]] + tail;
      var rest := Insert(m, tail);
      assert Insert(m, ms) == [ms[0]] + rest;
      var a := if ms[0].score == k then [ms[0]] else [];
      var b := if m.score == k then [m] else [];
      InsertKeepsScoreClass(m, tail, k);
      WithScoreCons(ms[0], rest, k);
      WithScoreCons(m, tail, k);
      WithScoreCons(m, ms, k);
      WithScoreCons(ms[0], tail, k);
      // the inserted match and the head it passes differ in score, so at most one is kept
      assert a == [] || b == [];
      SwapWhenOneEmpty(a, b, WithScore(tail, k));
    }
  }

  lemma SwapWhenOneEmpty(a: seq<Match>, b: seq<Match>, t: seq<Match>)
    requires a == [] || b == []
    ensures a + (b + t) == b + (a + t)
  {
    if a == [] {
      assert a + (b + t) == b + t == b + (a + t);
    } else {
      assert a + (b + t) == a + t == b + (a + t);
    }
  }

  /** The sort is stable: for every score, the matches with that score appear in input order. */
  lemma {:induction false} SortKeepsScoreClass(ms: seq<Match>, k: int)
    ensures WithScore(SortByScore(ms), k) == WithScore(ms, k)
    decreases |ms|
  {
    if |ms| > 0 {
      var sorted := SortByScore(ms[1..]);
      SortKeepsScoreClass(ms[1..], k);
      InsertKeepsScoreClass(ms[0], sorted, k);
      assert ([ms[0]] + sorted)[1..] == sorted;
    }
  }

  lemma SortKeepsScoreClasses(ms: seq<Match>)
    ensures forall k :: WithScore(SortByScore(ms), k) == WithScore(ms, k)
  {
    forall k
      ensures WithScore(SortByScore(ms), k) == WithScore(ms, k)
    {
      SortKeepsScoreClass(ms, k);
    }
  }

  /** Ranked matches over every active, unexpired entry and its open slots. */
  function FindMatches(entries: seq<Entry>, slots: seq<Slot>, now: int): (r: seq<Match>)
    ensures SortedByScore(r)
    ensures forall m :: m in r ==>
      && m.entry in entries && m.entry.status == Active && m.entry.expiresAt > now
      && m.slot in slots && m.slot.appointmentType.id == m.entry.appointmentType.id
      && !m.slot.isBooked && m.slot.startsAt > now
      && PositivelyScored(m, now)
    ensures forall e, s ::
      && e in entries && e.status == Active && e.expiresAt > now
      && s in slots && s.appointmentType.id == e.appointmentType.id && !s.isBooked && s.startsAt > now
      && Evaluate(e, s, now).score > 0
      ==> Evaluate(e, s, now) in r
    ensures |r| == |Candidates(ActiveWaitlist(entries, now), slots, now)|
    ensures forall k :: WithScore(r, k) == WithScore(Candidates(ActiveWaitlist(entries, now), slots, now), k)
  {
    var c := Candidates(ActiveWaitlist(entries, now), slots, now);
    CandidatesMembership(ActiveWaitlist(entries, now), slots, now);
    SortKeepsScoreClasses(c);
    SortKeepsMembers(c);
    SortByScore(c)
  }

  /** Ranked matches for one entry looked up by id; its status and expiry are not consulted. */
  function FindMatchesForEntry(entries: map<Id, Entry>, id: Id, slots: seq<Slot>, now: int): (r: seq<Match>)
    ensures id !in entries ==> r == []
    ensures SortedByScore(r)
    ensures forall m :: m in r ==>
      && id in entries && m.entry == entries[id]
      && m.slot in slots && m.slot.appointmentType.id == m.entry.appointmentType.id
      && !m.slot.isBooked && m.slot.startsAt > now
      && PositivelyScored(m, now)
    ensures id in entries ==> forall s ::
      && s in slots && s.appointmentType.id == entries[id].appointmentType.id && !s.isBooked && s.startsAt > now
      && Evaluate(entries[id], s, now).score > 0
      ==> Evaluate(entries[id], s, now) in r
    ensures id in entries ==> forall k ::
      WithScore(r, k) == WithScore(EntryMatches(entries[id], AvailableSlots(slots, entries[id].appointmentType.id, now), now), k)
  {
    if id !in entries then []
    else
      var e := entries[id];
      var ms := EntryMatches(e, AvailableSlots(slots, e.appointmentType.id, now), now);
      EntryMatchesMembership(e, AvailableSlots(slots, e.appointmentType.id, now), now);
      SortKeepsScoreClasses(ms);
      SortKeepsMembers(ms);
      SortByScore(ms)
  }

  /** The lookup by id ranks slots even for an entry the all-entries ranking leaves out, e.g. a cancelled one. */
  lemma LookupIgnoresStatus(entries: seq<Entry>, table: map<Id, Entry>, id: Id, slots: seq<Slot>, now: int, s: Slot)
    requires id in table && table[id].status == Cancelled
    requires s in slots && s.appointmentType.id == table[id].appointmentType.id && !s.isBooked && s.startsAt > now
    requires Evaluate(table[id], s, now).score > 0
    ensures Evaluate(table[id], s, now) in FindMatchesForEntry(table, id, slots, now)
    ensures forall m :: m in FindMatches(entries, slots, now) ==> m.entry != table[id]
  {
  }

  /** The scoring loop of one entry: keeps positive-scoring slots in slot order. */
  method CollectEntryMatches(e: Entry, available: seq<Slot>, now: int) returns (results: seq<Match>)
    ensures results == EntryMatches(e, available, now)
  {
    results := [];
    var j := 0;
    while j < |available|
      invariant 0 <= j <= |available|
      invariant results == EntryMatches(e, available[..j], now)
    {
      var m := Evaluate(e, available[j], now);
      EntryMatchesSnoc(e, available, j, now);
      if m.score > 0 {
        results := results + [m];
      }
      j := j + 1;
    }
    assert available[..j] == available;
  }

  /** One more slot appends its match when that scores above zero, and nothing otherwise. */
  lemma EntryMatchesSnoc(e: Entry, slots: seq<Slot>, j: int, now: int)
    requires 0 <= j < |slots|
    ensures Evaluate(e, slots[j], now).score > 0 ==>
      EntryMatches(e, slots[..j + 1], now) == EntryMatches(e, slots[..j], now) + [Evaluate(e, slots[j], now)]
    ensures Evaluate(e, slots[j], now).score <= 0 ==>
      EntryMatches(e, slots[..j + 1], now) == EntryMatches(e, slots[..j], now)
  {
    assert slots[..j + 1][..j] == slots[..j];
    assert slots[..j + 1][j] == slots[j];
  }

  /** The enumeration loop over all entries: each entry's kept pairs follow the previous entries'. */
  method CollectCandidates(waitlist: seq<Entry>, slots: seq<Slot>, now: int) returns (results: seq<Match>)
    ensures results == Candidates(waitlist, slots, now)
  {
    results := [];
    var i := 0;
    while i < |waitlist|
      invariant 0 <= i <= |waitlist|
      invariant results == Candidates(waitlist[..i], slots, now)
    {
      var e := waitlist[i];
      var found := CollectEntryMatches(e, AvailableSlots(slots, e.appointmentType.id, now), now);
      results := results + found;
      assert waitlist[..i + 1][..i] == waitlist[..i];
      i := i + 1;
    }
    assert waitlist[..i] == waitlist;
  }
}

=== FILE: scoring.dfy ===
/**
 The match score of one waitlist entry against one slot: the day of week is a
 hard filter, the business, practitioner and time-of-day preferences are soft
 bonuses or penalties, and urgency and time already waited add table-driven
 bonuses. The result carries a breakdown of every component and the reasons
 recorded along the way, in step order.
 */
module Scoring {
  import opened Domain
  import Availability
  import Waitlist
  import Decimal

  const BaseScore: int := 100
  const BusinessBonus: int := 20
  const BusinessPenalty: int := 30
  const PractitionerBonus: int := 25
  const PractitionerPenalty: int := 20
  const TimeOfDayBonus: int := 15
  const TimeOfDayPenalty: int := 15
  const WaitBonusCap: int := 30
  /** Waits longer than this many days are mentioned among the reasons. */
  const LongWaitDays: int := 7

  datatype Breakdown = Breakdown(
    baseScore: int,
    businessBonus: int,
    practitionerBonus: int,
    timeOfDayBonus: int,
    urgencyBonus: int,
    waitTimeBonus: int,
    totalScore: int)
  {
    /** The sum of the six components, before any clamping. */
    function ComponentSum(): int {
      baseScore + businessBonus + practitionerBonus + timeOfDayBonus + urgencyBonus + waitTimeBonus
    }
  }

  /** A breakdown whose total is the unclamped sum of the given components. */
  function CreateBreakdown(base: int, business: int, practitioner: int, time: int, urgency: int, wait: int): (b: Breakdown)
    ensures b.totalScore == b.ComponentSum()
    ensures b.baseScore == base && b.businessBonus == business && b.practitionerBonus == practitioner
    ensures b.timeOfDayBonus == time && b.urgencyBonus == urgency && b.waitTimeBonus == wait
  {
    Breakdown(base, business, practitioner, time, urgency, wait, base + business + practitioner + time + urgency + wait)
  }

  /** Why a slot suits an entry; rendered to text by `Text`. */
  datatype Reason =
    | DayNotAvailable
    | AvailableOn(day: DayOfWeek)
    | PreferredLocation(businessName: string)
    | PreferredPractitioner(practitionerName: string)
    | PreferredTime(time: TimeOfDay)
    | Priority(urgency: Urgency)
    | Waiting(days: nat)

  /** The scoring step that records a reason; reasons are listed in step order. */
  function StepOf(r: Reason): nat {
    match r
    case DayNotAvailable => 0
    case AvailableOn(_) => 0
    case PreferredLocation(_) => 1
    case PreferredPractitioner(_) => 2
    case PreferredTime(_) => 3
    case Priority(_) => 4
    case Waiting(_) => 5
  }

  predicate InStepOrder(rs: seq<Reason>) {
    forall i, j :: 0 <= i < j < |rs| ==> StepOf(rs[i]) < StepOf(rs[j])
  }

  /** `toUpperCase` on one character, for the ASCII letters the urgency names use. */
  function UpperCase(c: char): char {
    if 'a' <= c <= 'z' then (c as int - 32) as char else c
  }

  /** The urgency name with its first letter in upper case and the rest as is. */
  function Capitalized(u: Urgency): (t: string)
    ensures |t| == |UrgencyName(u)| > 0
    ensures t[1..] == UrgencyName(u)[1..]
    ensures 'A' <= t[0] <= 'Z'
  {
    var name := UrgencyName(u);
    [UpperCase(name[0])] + name[1..]
  }

  /** The four capitalised names, as the priority reason spells them. */
  lemma CapitalizedNames()
    ensures Capitalized(Low) == "Low" && Capitalized(Normal) == "Normal"
    ensures Capitalized(High) == "High" && Capitalized(Urgent) == "Urgent"
  {
    assert UpperCase('l') == 'L' && UpperCase('n') == 'N' && UpperCase('h') == 'H' && UpperCase('u') == 'U';
  }

  /** The sentence a reason is shown as. */
  function Text(r: Reason): (t: string)
    ensures r.DayNotAvailable? ==> t == "Day not available"
    ensures r.AvailableOn? ==> "Available on " <= t
    ensures r.PreferredLocation? ==> "Preferred location: " <= t
    ensures r.PreferredPractitioner? ==> "Preferred practitioner: " <= t
    ensures r.PreferredTime? ==> "Preferred time: " <= t
    ensures r.Priority? ==> Capitalized(r.urgency) <= t && |t| >= 9 && t[|t| - 9..] == " priority"
    ensures r.Waiting? ==> "Waiting " <= t && |t| >= 5 && t[|t| - 5..] == " days"
  {
    match r
    case DayNotAvailable => "Day not available"
    case AvailableOn(d) => "Available on " + DayName(d)
    case PreferredLocation(name) => "Preferred location: " + name
    case PreferredPractitioner(name) => "Preferred practitioner: " + name
    case PreferredTime(t) => "Preferred time: " + TimeOfDayName(t)
    case Priority(u) => Capitalized(u) + " priority"
    case Waiting(days) => "Waiting " + Decimal.NatToDecimal(days) + " days"
  }

  function Texts(rs: seq<Reason>): (ts: seq<string>)
    ensures |ts| == |rs|
    ensures forall i :: 0 <= i < |rs| ==> ts[i] == Text(rs[i])
  {
    seq(|rs|, i requires 0 <= i < |rs| => Text(rs[i]))
  }

  /** Which kind of reason a text shows, read from its first letter and, for the preferences, its eleventh. */
  function KindOfText(t: string): nat {
    if |t| == 0 then 0
    else if t[0] == 'D' then 1
    else if t[0] == 'A' then 2
    else if t[0] == 'W' then 7
    else if t[0] == 'P' && |t| > 10 then
      (if t[10] == 'l' then 3 else if t[10] == 'p' then 4 else if t[10] == 't' then 5 else 0)
    else 6
  }

  function KindOf(r: Reason): nat {
    match r
    case DayNotAvailable => 1
    case AvailableOn(_) => 2
    case PreferredLocation(_) => 3
    case PreferredPractitioner(_) => 4
    case PreferredTime(_) => 5
    case Priority(_) => 6
    case Waiting(_) => 7
  }

  lemma KindOfTextIsKind(r: Reason)
    ensures KindOfText(Text(r)) == KindOf(r)
  {
    if r.Priority? {
      CapitalizedNames();
    }
  }

  lemma DayNameInjective(d1: DayOfWeek, d2: DayOfWeek)
    requires DayName(d1) == DayName(d2)
    ensures d1 == d2
  {
  }

  lemma TimeOfDayNameInjective(t1: TimeOfDay, t2: TimeOfDay)
    requires TimeOfDayName(t1) == TimeOfDayName(t2)
    ensures t1 == t2
  {
  }

  /** Equal texts after a common prefix have equal remainders. */
  lemma DropPrefix(p: string, a: string, b: string)
    requires p + a == p + b
    ensures a == b
  {
    assert a == (p + a)[|p|..];
    assert b == (p + b)[|p|..];
  }

  /** Distinct reasons are shown as distinct texts: each reason can be recovered from its text. */
  lemma TextInjective(r1: Reason, r2: Reason)
    ensures Text(r1) == Text(r2) <==> r1 == r2
  {
    if Text(r1) == Text(r2) {
      KindOfTextIsKind(r1);
      KindOfTextIsKind(r2);
      SameKindTextInjective(r1, r2);
    }
  }

  /** Two reasons of the same kind with the same text carry the same value. */
  lemma SameKindTextInjective(r1: Reason, r2: Reason)
    requires KindOf(r1) == KindOf(r2) && Text(r1) == Text(r2)
    ensures r1 == r2
  {
    match r1
    case DayNotAvailable =>
    case AvailableOn(d) =>
      DropPrefix("Available on ", DayName(d), DayName(r2.day));
      DayNameInjective(d, r2.day);
    case PreferredLocation(name) =>
      DropPrefix("Preferred location: ", name, r2.businessName);
    case PreferredPractitioner(name) =>
      DropPrefix("Preferred practitioner: ", name, r2.practitionerName);
    case PreferredTime(t) =>
      DropPrefix("Preferred time: ", TimeOfDayName(t), TimeOfDayName(r2.time));
      TimeOfDayNameInjective(t, r2.time);
    case Priority(u) =>
      PriorityTextInjective(u, r2.urgency);
    case Waiting(days) =>
      WaitingTextInjective(days, r2.days);
  }

  lemma PriorityTextInjective(u1: Urgency, u2: Urgency)
    requires Text(Priority(u1)) == Text(Priority(u2))
    ensures u1 == u2
  {
    CapitalizedNames();
  }

  lemma WaitingTextInjective(d1: nat, d2: nat)
    requires Text(Waiting(d1)) == Text(Waiting(d2))
    ensures d1 == d2
  {
    WaitingTextRecoversDays(d1);
    WaitingTextRecoversDays(d2);
  }

  /** The number of days in a wait reason can be read back from its text. */
  lemma WaitingTextRecoversDays(days: nat)
    ensures var t := Text(Waiting(days));
      8 <= |t| - 5 &&
      Decimal.AllDigits(t[8..|t| - 5]) &&
      Decimal.DecimalValue(t[8..|t| - 5]) == days
  {
    var digits := Decimal.NatToDecimal(days);
    var t := Text(Waiting(days));
    assert t == "Waiting " + digits + " days";
    assert t[8..|t| - 5] == digits;
    Decimal.DecimalRoundTrip(days);
  }

  /** Practitioner label used in reasons: title and last name when a title is set, else first and last name. */
  function PractitionerLabel(p: Practitioner): (s: string)
    ensures Truthy(p.title) ==> s == p.title.value + " " + p.lastName
    ensures !Truthy(p.title) ==> s == p.firstName + " " + p.lastName
  {
    if Truthy(p.title) then p.title.value + " " + p.lastName else p.firstName + " " + p.lastName
  }

  /** The scoring's own day-of-week lookup of a slot's start. */
  function SlotDayOfWeek(i: DayIndex): (d: DayOfWeek)
    ensures Availability.DayIndexOf(d) == i
  {
    [Sun, Mon, Tue, Wed, Thu, Fri, Sat][i]
  }

  /** The scoring's own time-of-day boundaries. */
  function SlotTimeOfDay(hour: int): (t: TimeOfDay)
    ensures t == Morning <==> hour < 12
    ensures t == Evening <==> hour >= 17
  {
    if hour < 12 then Morning
    else if hour < 17 then Afternoon
    else Evening
  }

  /** The scoring's private helpers agree with the shared ones. */
  lemma SlotHelpersAgree(i: DayIndex, hour: int)
    ensures SlotDayOfWeek(i) == Availability.DayOfWeekFromIndex(i)
    ensures SlotTimeOfDay(hour) == Availability.TimeOfDayFor(hour)
  {
  }

  /** Urgency bonus table. */
  function UrgencyBonus(u: Urgency): (b: int)
    ensures 0 <= b <= 40
    ensures b == 40 <==> u == Urgent
    ensures b == [0, 10, 25, 40][Waitlist.UrgencyScore(u) - 1]
  {
    match u
    case Urgent => 40
    case High => 25
    case Normal => 10
    case Low => 0
  }

  /** The urgency bonus strictly increases along the urgency order. */
  lemma UrgencyBonusIncreasing(i: int, j: int)
    requires 0 <= i < j < |Waitlist.UrgencyOrder|
    ensures UrgencyBonus(Waitlist.UrgencyOrder[i]) < UrgencyBonus(Waitlist.UrgencyOrder[j])
  {
  }

  /** Whole days elapsed since creation, rounded down (negative for a creation time in the future). */
  function DaysWaiting(now: int, createdAt: int): (d: int)
    ensures d * MillisPerDay <= now - createdAt < (d + 1) * MillisPerDay
  {
    (now - createdAt) / MillisPerDay
  }

  /** Two points per day waited, capped at 30. */
  function WaitTimeBonus(days: int): (b: int)
    ensures b <= WaitBonusCap
    ensures b <= 2 * days
    ensures b == WaitBonusCap || b == 2 * days
  {
    if days * 2 < WaitBonusCap then days * 2 else WaitBonusCap
  }

  /** For an entry created in the past, the rounded-up waitlist age exceeds the rounded-down waiting time by at most one. */
  lemma DaysWaitingVersusDaysOnWaitlist(now: int, createdAt: int)
    requires createdAt <= now
    ensures DaysWaiting(now, createdAt) <= Waitlist.DaysOnWaitlist(createdAt, now) <= DaysWaiting(now, createdAt) + 1
  {
  }

  /** The outcome of one soft preference: the bonus it adds, the penalty it subtracts from the base, and whether it matched. */
  datatype Preference = Preference(bonus: int, penalty: int, matched: bool)

  /** A soft preference: no preference is neutral, a matching one earns the bonus, a missed one costs the penalty. */
  function SoftPreference<T(==)>(prefs: seq<T>, value: T, bonus: int, penalty: int): (p: Preference)
    ensures p.matched <==> value in prefs
    ensures |prefs| == 0 ==> p.bonus == 0 && p.penalty == 0
    ensures value in prefs ==> p.bonus == bonus && p.penalty == 0
    ensures |prefs| > 0 && value !in prefs ==> p.bonus == 0 && p.penalty == penalty
  {
    if |prefs| == 0 || value in prefs then
      if value in prefs then Preference(bonus, 0, true) else Preference(0, 0, false)
    else
      Preference(0, penalty, false)
  }

  datatype ScoreResult = ScoreResult(score: int, breakdown: Breakdown, reasons: seq<Reason>)

  /** The hard day filter: the entry names days and the slot's day is not one of them. */
  predicate DayRejected(e: Entry, s: Slot) {
    |e.availableDays| > 0 && Availability.DayOfWeekFromIndex(s.startDay) !in e.availableDays
  }

  /** Penalty for a non-empty preference list that misses the slot's value. */
  function Missed<T(==)>(prefs: seq<T>, value: T, penalty: int): int {
    if |prefs| > 0 && value !in prefs then penalty else 0
  }

  /** Bonus for a preference list that names the slot's value. */
  function Hit<T(==)>(prefs: seq<T>, value: T, bonus: int): int {
    if value in prefs then bonus else 0
  }

  /** A reason the scoring of `e` against `s` may record, given whether its condition holds. */
  predicate Justified(r: Reason, e: Entry, s: Slot, now: int) {
    match r
    case DayNotAvailable => false
    case AvailableOn(d) => d == Availability.DayOfWeekFromIndex(s.startDay) && d in e.availableDays
    case PreferredLocation(name) => name == s.business.name && s.business.id in e.preferredBusinesses
    case PreferredPractitioner(name) =>
      name == PractitionerLabel(s.practitioner) && s.practitioner.id in e.preferredPractitioners
    case PreferredTime(t) => t == Availability.TimeOfDayFor(s.startHour) && t in e.preferredTimes
    case Priority(u) => u == e.urgency && (u == Urgent || u == High)
    case Waiting(days) => days == DaysWaiting(now, e.createdAt) && days > LongWaitDays
  }

  /** Every reason whose condition holds is recorded. */
  predicate AllJustifiedPresent(rs: seq<Reason>, e: Entry, s: Slot, now: int) {
    var day := Availability.DayOfWeekFromIndex(s.startDay);
    var time := Availability.TimeOfDayFor(s.startHour);
    var days := DaysWaiting(now, e.createdAt);
    && (day in e.availableDays ==> AvailableOn(day) in rs)
    && (s.business.id in e.preferredBusinesses ==> PreferredLocation(s.business.name) in rs)
    && (s.practitioner.id in e.preferredPractitioners ==> PreferredPractitioner(PractitionerLabel(s.practitioner)) in rs)
    && (time in e.preferredTimes ==> PreferredTime(time) in rs)
    && (e.urgency == Urgent || e.urgency == High ==> Priority(e.urgency) in rs)
    && (days > LongWaitDays ==> Waiting(days) in rs)
  }

  /** Appends `x` when `record` holds; the list stays in step order because `x` belongs to a later step. */
  function Record(rs: seq<Reason>, record: bool, x: Reason, e: Entry, s: Slot, now: int): (r: seq<Reason>)
    requires InStepOrder(rs)
    requires forall y :: y in rs ==> StepOf(y) < StepOf(x)
    requires forall y :: y in rs ==> Justified(y, e, s, now)
    requires record ==> Justified(x, e, s, now)
    ensures InStepOrder(r)
    ensures forall y :: y in r ==> StepOf(y) <= StepOf(x)
    ensures forall y :: y in r ==> Justified(y, e, s, now)
    ensures forall y :: y in rs ==> y in r
    ensures record ==> x in r
  {
    if record then rs + [x] else rs
  }

  /** The reasons of the day, location, practitioner and time-of-day steps, in that order. */
  function PreferenceReasons(e: Entry, s: Slot, now: int): (rs: seq<Reason>)
    ensures InStepOrder(rs)
    ensures forall x :: x in rs ==> StepOf(x) < 4 && Justified(x, e, s, now)
    ensures var day := Availability.DayOfWeekFromIndex(s.startDay);
      var time := Availability.TimeOfDayFor(s.startHour);
      && (day in e.availableDays ==> AvailableOn(day) in rs)
      && (s.business.id in e.preferredBusinesses ==> PreferredLocation(s.business.name) in rs)
      && (s.practitioner.id in e.preferredPractitioners ==> PreferredPractitioner(PractitionerLabel(s.practitioner)) in rs)
      && (time in e.preferredTimes ==> PreferredTime(time) in rs)
  {
    SlotHelpersAgree(s.startDay, s.startHour);
    var day := SlotDayOfWeek(s.startDay);
    var time := SlotTimeOfDay(s.startHour);
    var r0 := if day in e.availableDays then [AvailableOn(day)] else [];
    var r1 := Record(r0, s.business.id in e.preferredBusinesses, PreferredLocation(s.business.name), e, s, now);
    var r2 := Record(r1, s.practitioner.id in e.preferredPractitioners,
                     PreferredPractitioner(PractitionerLabel(s.practitioner)), e, s, now);
    Record(r2, time in e.preferredTimes, PreferredTime(time), e, s, now)
  }

  /** The reasons recorded for a slot that passed the day filter, step by step. */
  function ScoreReasons(e: Entry, s: Slot, now: int): (rs: seq<Reason>)
    ensures forall x :: x in rs ==> Justified(x, e, s, now)
    ensures AllJustifiedPresent(rs, e, s, now)
    ensures InStepOrder(rs)
  {
    var days := DaysWaiting(now, e.createdAt);
    var r3 := PreferenceReasons(e, s, now);
    var r4 := Record(r3, e.urgency == Urgent || e.urgency == High, Priority(e.urgency), e, s, now);
    Record(r4, days > LongWaitDays, Waiting(if days > LongWaitDays then days else 0), e, s, now)
  }

  /** The six components of a slot that passed the day filter. */
  function ScoreBreakdown(e: Entry, s: Slot, now: int): (b: Breakdown)
    ensures b.totalScore == b.ComponentSum()
    ensures var time := Availability.TimeOfDayFor(s.startHour);
      && b.baseScore == BaseScore
           - Missed(e.preferredBusinesses, s.business.id, BusinessPenalty)
           - Missed(e.preferredPractitioners, s.practitioner.id, PractitionerPenalty)
           - Missed(e.preferredTimes, time, TimeOfDayPenalty)
      && b.businessBonus == Hit(e.preferredBusinesses, s.business.id, BusinessBonus)
      && b.practitionerBonus == Hit(e.preferredPractitioners, s.practitioner.id, PractitionerBonus)
      && b.timeOfDayBonus == Hit(e.preferredTimes, time, TimeOfDayBonus)
      && b.urgencyBonus == UrgencyBonus(e.urgency)
      && b.waitTimeBonus == WaitTimeBonus(DaysWaiting(now, e.createdAt))
  {
    SlotHelpersAgree(s.startDay, s.startHour);
    var business := SoftPreference(e.preferredBusinesses, s.business.id, BusinessBonus, BusinessPenalty);
    var practitioner := SoftPreference(e.preferredPractitioners, s.practitioner.id, PractitionerBonus, PractitionerPenalty);
    var time := SoftPreference(e.preferredTimes, SlotTimeOfDay(s.startHour), TimeOfDayBonus, TimeOfDayPenalty);
    var baseScore := BaseScore - business.penalty - practitioner.penalty - time.penalty;
    CreateBreakdown(
      baseScore, business.bonus, practitioner.bonus, time.bonus,
      UrgencyBonus(e.urgency), WaitTimeBonus(DaysWaiting(now, e.createdAt)))
  }

  /**
   Score of entry `e` against slot `s` at time `now` (epoch milliseconds). The
   caller has already checked that both have the same appointment type.
   */
  function CalculateMatchScore(e: Entry, s: Slot, now: int): (r: ScoreResult)
    ensures DayRejected(e, s) ==> r == ScoreResult(0, Breakdown(0, 0, 0, 0, 0, 0, 0), [DayNotAvailable])
    ensures !DayRejected(e, s) ==> r.breakdown == ScoreBreakdown(e, s, now) && r.reasons == ScoreReasons(e, s, now)
    ensures r.breakdown.totalScore == r.breakdown.ComponentSum()
    ensures r.score == if r.breakdown.totalScore < 0 then 0 else r.breakdown.totalScore
  {
    var day := SlotDayOfWeek(s.startDay);
    SlotHelpersAgree(s.startDay, s.startHour);
    if |e.availableDays| > 0 && day !in e.availableDays then
      ScoreResult(0, CreateBreakdown(0, 0, 0, 0, 0, 0), [DayNotAvailable])
    else
      var breakdown := ScoreBreakdown(e, s, now);
      ScoreResult(if breakdown.totalScore < 0 then 0 else breakdown.totalScore, breakdown, ScoreReasons(e, s, now))
  }

  /** Once the day filter passes and the entry was created in the past, the score lies in 35..230, so it is positive and never clamped. */
  lemma ScoreBounds(e: Entry, s: Slot, now: int)
    requires !DayRejected(e, s)
    requires DaysWaiting(now, e.createdAt) >= 0
    ensures var r := CalculateMatchScore(e, s, now);
      35 <= r.score <= 230 && r.score == r.breakdown.totalScore
  {
  }

  /** With every preference list empty the score is exactly base plus urgency and wait bonuses. */
  lemma NoPreferencesScore(e: Entry, s: Slot, now: int)
    requires !DayRejected(e, s) && |e.preferredBusinesses| == 0
    requires |e.preferredPractitioners| == 0 && |e.preferredTimes| == 0
    requires DaysWaiting(now, e.createdAt) >= 0
    ensures CalculateMatchScore(e, s, now).score
         == BaseScore + UrgencyBonus(e.urgency) + WaitTimeBonus(DaysWaiting(now, e.createdAt))
  {
  }

  /** Raising an entry's urgency, all else equal, strictly raises the score of a slot that passes the day filter. */
  lemma HigherUrgencyScoresHigher(e: Entry, s: Slot, now: int, i: int, j: int)
    requires 0 <= i < j < |Waitlist.UrgencyOrder|
    requires !DayRejected(e, s)
    requires DaysWaiting(now, e.createdAt) >= 0
    ensures CalculateMatchScore(e.(urgency := Waitlist.UrgencyOrder[i]), s, now).score
          < CalculateMatchScore(e.(urgency := Waitlist.UrgencyOrder[j]), s, now).score
  {
    var lower := e.(urgency := Waitlist.UrgencyOrder[i]);
    var higher := e.(urgency := Waitlist.UrgencyOrder[j]);
    ScoreBounds(lower, s, now);
    ScoreBounds(higher, s, now);
    UrgencyBonusIncreasing(i, j);
    var b1 := ScoreBreakdown(lower, s, now);
    var b2 := ScoreBreakdown(higher, s, now);
    assert b1.urgencyBonus < b2.urgencyBonus;
    assert b1.ComponentSum() - b1.urgencyBonus == b2.ComponentSum() - b2.urgencyBonus;
  }

  /** An entry whose creation time lies 120 days or more in the future scores 0 on every slot, acceptable day or not. */
  lemma FutureCreationClampsToZero(e: Entry, s: Slot, now: int)
    requires e.createdAt >= now + 120 * MillisPerDay
    ensures CalculateMatchScore(e, s, now).score == 0
  {
    if !DayRejected(e, s) {
      var anyDay := e.(availableDays := []);
      FutureCreationClampsAnyDay(anyDay, s, now);
      assert ScoreBreakdown(e, s, now) == ScoreBreakdown(anyDay, s, now);
    }
  }

  /** The case without a day list, where the day filter never applies. */
  lemma FutureCreationClampsAnyDay(e: Entry, s: Slot, now: int)
    requires |e.availableDays| == 0
    requires e.createdAt >= now + 120 * MillisPerDay
    ensures CalculateMatchScore(e, s, now).score == 0
  {
    var days := DaysWaiting(now, e.createdAt);
    assert days * MillisPerDay <= -120 * MillisPerDay;
    assert days <= -120;
    var b := ScoreBreakdown(e, s, now);
    assert b.waitTimeBonus <= -240;
    assert b.ComponentSum() < 0;
  }

  /**
   An urgent entry waiting ten days, free on Mondays only, naming one
   practitioner and no business or time, against a Monday slot with that
   practitioner.
   */
  predicate UrgentMondayCase(e: Entry, monday: Slot, now: int) {
    && e.urgency == Urgent && e.availableDays == [Mon]
    && e.preferredPractitioners == [monday.practitioner.id]
    && e.preferredBusinesses == [] && e.preferredTimes == []
    && now - e.createdAt == 10 * MillisPerDay
    && monday.startDay == 1
  }

  lemma UrgentMondayBreakdown(e: Entry, monday: Slot, now: int)
    requires UrgentMondayCase(e, monday, now)
    ensures ScoreBreakdown(e, monday, now) == Breakdown(100, 0, 25, 0, 40, 20, 185)
  {
    assert DaysWaiting(now, e.createdAt) == 10;
  }

  lemma UrgentMondayReasons(e: Entry, monday: Slot, now: int)
    requires UrgentMondayCase(e, monday, now)
    ensures ScoreReasons(e, monday, now)
         == [AvailableOn(Mon), PreferredPractitioner(PractitionerLabel(monday.practitioner)), Priority(Urgent), Waiting(10)]
  {
    assert DaysWaiting(now, e.createdAt) == 10;
    assert Availability.DayOfWeekFromIndex(1) == Mon;
    var name := PractitionerLabel(monday.practitioner);
    var preferences := PreferenceReasons(e, monday, now);
    assert preferences == [AvailableOn(Mon), PreferredPractitioner(name)];
  }

  /**
   For such an entry the Monday slot scores 100 + 25 + 40 + 20 = 185 with
   four reasons, and a Tuesday slot is rejected outright.
   */
  lemma UrgentMondayExample(e: Entry, monday: Slot, tuesday: Slot, now: int)
    requires UrgentMondayCase(e, monday, now)
    requires tuesday.startDay == 2
    ensures CalculateMatchScore(e, monday, now).score == 185
    ensures CalculateMatchScore(e, monday, now).reasons
         == [AvailableOn(Mon), PreferredPractitioner(PractitionerLabel(monday.practitioner)), Priority(Urgent), Waiting(10)]
    ensures CalculateMatchScore(e, tuesday, now) == ScoreResult(0, Breakdown(0, 0, 0, 0, 0, 0, 0), [DayNotAvailable])
  {
    assert Availability.DayOfWeekFromIndex(1) == Mon;
    assert Availability.DayOfWeekFromIndex(2) == Tue;
    UrgentMondayBreakdown(e, monday, now);
    UrgentMondayReasons(e, monday, now);
  }
}

=== FILE: waitlist.dfy ===
/**
 Waitlist helpers: the urgency sort score and the rounded-up number of days an
 entry has been on the waitlist.
 */
module Waitlist {
  import opened Domain

  /** Urgency levels from least to most urgent. */
  const UrgencyOrder: seq<Urgency> := [Low, Normal, High, Urgent]

  /** Sort score of an urgency: its 1-based position in ascending urgency order. */
  function UrgencyScore(u: Urgency): (r: int)
    ensures 1 <= r <= 4
    ensures UrgencyOrder[r - 1] == u
  {
    match u
    case Low => 1
    case Normal => 2
    case High => 3
    case Urgent => 4
  }

  /** The score strictly increases along the urgency order. */
  lemma UrgencyScoreStrictlyIncreasing(i: int, j: int)
    requires 0 <= i < j < |UrgencyOrder|
    ensures UrgencyScore(UrgencyOrder[i]) < UrgencyScore(UrgencyOrder[j])
  {
  }

  /** Different urgencies never share a score. */
  lemma UrgencyScoreInjective(u: Urgency, v: Urgency)
    requires UrgencyScore(u) == UrgencyScore(v)
    ensures u == v
  {
    assert UrgencyOrder[UrgencyScore(u) - 1] == u;
  }

  function Abs(x: int): nat {
    if x < 0 then -x else x
  }

  /** Days between creation and now, in either direction, rounded up. */
  function DaysOnWaitlist(createdAt: int, now: int): (d: nat)
    ensures (d - 1) * MillisPerDay < Abs(now - createdAt) <= d * MillisPerDay
  {
    var diff := Abs(now - createdAt);
    if diff % MillisPerDay == 0 then diff / MillisPerDay else diff / MillisPerDay + 1
  }

  /** A creation time d milliseconds in the future counts like one d milliseconds in the past. */
  lemma DaysOnWaitlistSymmetric(now: int, d: int)
    ensures DaysOnWaitlist(now + d, now) == DaysOnWaitlist(now - d, now)
  {
  }

  /** The count is zero exactly when the creation time is now. */
  lemma DaysOnWaitlistZeroIff(createdAt: int, now: int)
    ensures DaysOnWaitlist(createdAt, now) == 0 <==> createdAt == now
  {
  }

  /** Any positive difference of at most one day counts as one day. */
  lemma DaysOnWaitlistWithinOneDay(createdAt: int, now: int)
    requires 0 < Abs(now - createdAt) <= MillisPerDay
    ensures DaysOnWaitlist(createdAt, now) == 1
  {
  }
}
